=== FILE: README.md ===
# Meeting, employee and credential handlers, modelled in Dafny

This project models the request handlers of a Flask/SQLAlchemy backend:

- **Meeting lifecycle** (`app/routes/meeting_crud.py`): create, paginated list, get, partial update and delete.
- **Employee store** (`app/routes/employee_crud.py`): create, get, list, update and delete over the `Employee` table of `app/models.py`.
- **Credentials**: registration and login of credential holders, in two variants.
  - The admin variant (`app/routes/admin_auth.py`) lower-cases and strips emails, and strips names and login passwords.
  - The user variant (`app/routes/auth.py`) takes every string as sent.

## How handlers are modelled

Every handler is a pure function from the request and the current table to an `Outcome`, which carries three things: the HTTP status, the table left behind and the response body.

- **Tables.** A table is a map from surrogate id to row (`Store.Table`). Three lookups are modelled:
  - `.first()` returns the least matching id (`Store.FirstWhere`);
  - listings come in ascending id order (`Store.Ascending`);
  - a new row gets an id that is not in use and exceeds every id in use (`Store.FreshKey`), as a PostgreSQL serial key provides. The contracts rely on nothing more; the model picks the largest id plus one.
- **Changes.** `Inserted`, `Replaced` and `Removed` each say that exactly one row changed and nothing else did. The contracts use them to state the central property: every non-2xx answer leaves the table unchanged, and every success adds, replaces or removes exactly one row.
- **Request bodies.** A request body is a decoded JSON object (`Values.Payload`). Python's truthiness and `dict.get` are modelled on it.
- **Handler errors.** Some errors are raised inside a handler: a non-string field hitting `.lower()` or `.strip()`, an email lookup whose parameter the driver cannot bind, or a commit the database refuses. In the employee and credential handlers these are 500 answers with the table unchanged, because the handler rolls back, or because Flask answers 500 before anything was committed.
- **The U+0000 character.** psycopg2 raises `ValueError` for a query parameter holding U+0000, and SQLAlchemy passes it on unwrapped. `Store.Bindable` names the strings it accepts. An email lookup with such a string raises before the table is read, and a row holding one fails at commit.

Three collaborators are parameters of the model:

- **Password hashing.** `Crypto.Hasher` stands for bcrypt's `generate_password_hash` and `check_password_hash`. `Crypto.Sound` states the one fact the proofs rely on: a digest matches exactly its plaintext. `Crypto.IdentityIsSound` shows that some hasher meets it. A hasher hashes with one fixed salt; calls made with different salts are modelled by different hashers.
- **Datetime parsing.** `Meetings.Parser` stands for `datetime.fromisoformat` on strings. `Meetings.FromIso` adds Python's behaviour on non-strings, which raise `TypeError` rather than `ValueError`.
- **Meeting commits.** `Meetings.Database` gives the end of `db.session.commit()` for a meeting row (`Meetings.Commit`): stored, a `ValueError` from the driver, or a `SQLAlchemyError`. The meeting handlers catch `ValueError` before `SQLAlchemyError` (`meeting_crud.py:55-60`, `:170-175`), so a driver `ValueError` is answered 400 "Invalid datetime format", like a malformed time.

### Column limits

The employee and credential tables' column limits are modelled explicitly: `Employees.Fits` and `Credentials.Fits`.

- Employee: `emp_id` is a 32-bit `Integer`; name, email and digest are `String(100)`.
- Credential holder: name is `String(50)`; email and digest are `String(100)`.
- No string column can hold U+0000 (`Store.Bindable`).

A `String(n)` column takes a longer value only when every character past the n-th is a space, and then stores the first n characters (`Store.Storable`, `Store.Column`). Any other value too long for its column fails at commit, and the handler answers 500.

- The employee handlers and the admin variant strip name and email first, so those never end in a space. For them "taken" and "fits" coincide (`Store.ColumnKeepsUnpadded`, `Credentials.AdminRowsKeptWhole`).
- The user variant stores name and email as sent (`auth.py:29`). A name or email that exceeds its column only by spaces is cut and stored (`Credentials.Committed`). The reply reads them back from the stored row, which SQLAlchemy reloads after the commit (`auth.py:38`).
- The cut email may then equal another account's email, and the unique constraint fails the commit (500).

`Employees.Valid` and `Credentials.Valid` include that every stored row fits.

### Meeting and Admin tables

`app/models.py` declares only `User` and `Employee`. The `Meeting` and `Admin` classes the handlers import are not part of this model.

- `Meetings.Meeting` holds the columns the create handler writes (`meeting_crud.py:23-35`).
- An admin row is taken to have the columns of `User`.

### Behaviours a reader might not expect

The model follows the code in each case.

- **Email normalisation.** The user variant stores and looks up emails exactly as sent (`auth.py:22`, `:52`). Only the admin and employee handlers lower-case and strip them (`admin_auth.py:23`, `employee_crud.py:25`). `Credentials.UserEmailsAreCaseSensitive` and `Credentials.AdminEmailVariantRefused` prove the difference.
- **Blank admin names.** The admin variant tests the name for truthiness before stripping it (`admin_auth.py:16`, `:33`). A name of only spaces passes the test and is stored as `""`.
- **Meeting update overwrites.** One might expect an update to skip empty values. The code overwrites a field with any non-null value (`meeting_crud.py:161-163`), so `""` and `[]` overwrite too. `start_time` is overwritten whenever its key is present, and `end_time` only when its value is truthy (`meeting_crud.py:147-156`).
- **Non-string times.** A meeting whose `start_time` is not a string gets 500 "Internal server error", not 400, because `fromisoformat` raises `TypeError`, which only the catch-all handles (`meeting_crud.py:61-63`, `:176-178`). In create the same holds for a truthy non-string `end_time`. In update it holds for any non-null non-string `end_time`, such as `0`, `false` or `[]`, because the pre-pass parses every non-null value (`meeting_crud.py:140-141`).
- **Empty end time.** Update's pre-pass also parses `""`, so it is refused with 400. Create treats `""` as "no end time" (`Meetings.UpdateRejectsEmptyEndTime`, `Meetings.CreateIgnoresFalsyEndTime`).
- **Padded admin passwords.** Admin login strips the password it checks (`admin_auth.py:62`), but admin registration hashes the password unstripped (`admin_auth.py:28`). An admin registered with surrounding whitespace in the password can never log in (`Credentials.PaddedAdminPasswordNeverLogsIn`).
- **Repeated password updates.** bcrypt salts every hash, so sending the same employee update twice writes a different digest each time. `Employees.UpdateIdempotent` models the two calls with two hashers.

## Model

| member | source | states |
|---|---|---|
| Values.Get | app/routes/employee_crud.py:16-19 | `data.get(key)` is the value under the key, or null when the key is absent. A non-null answer comes from the body. |
| Values.GetOr | app/routes/meeting_crud.py:33-34 | `data.get(key, default)` is the value under the key when present, and the default otherwise. |
| Values.GetConflatesNullAndAbsent | app/routes/meeting_crud.py:144-158 | `data.get(key)` answers the same for a key sent as null and a key left out, and differently exactly when the value was not null. |
| Values.FalsyValues | app/routes/employee_crud.py:14-21 | Python's `bool()` is false exactly for None, False, 0, "", [] and {}. |
| Meetings.FromIso | app/routes/meeting_crud.py:27-32 | A non-string time raises TypeError. It is distinguished from a string the parser refuses (ValueError). A parsed time is the instant the parser gives. |
| Meetings.LinkTo | app/routes/meeting_crud.py:45 | The meeting link is `/meetings/` followed by decimal digits that read back as the new id. |
| Meetings.Create | app/routes/meeting_crud.py:10-63 | A missing required key gives 400, and so do non-list attendees. A malformed time gives 400 and a non-string one 500. A commit that raises `ValueError` gives 400 and a `SQLAlchemyError` 500. Every failure leaves the schedule unchanged. 201 exactly when all checks pass and the row is stored; then one meeting is inserted under a fresh id, and the reply echoes name, start and link. |
| Meetings.List | app/routes/meeting_crud.py:66-98 | The schedule is unchanged and the status is 200. Page and per_page default to 1 and 10 and are clamped. The envelope (total, pages, page, per_page, has_next, has_prev) is that of the pagination of the ids in ascending order. The summaries are exactly the meetings on that page, in order, each matching its stored meeting. |
| Meetings.PageOfIds | app/routes/meeting_crud.py:73 | The page is the pagination of the ascending ids. It holds at most per_page ids, all stored and strictly increasing. |
| Meetings.GetOne | app/routes/meeting_crud.py:103-125 | 404 exactly for an absent id; otherwise 200 with every stored field. Nothing changes. |
| Meetings.NewMeeting | app/routes/meeting_crud.py:23-35 | The new row holds name, host_id and attendees as sent and the parsed start. It has an end time exactly when end_time is truthy, and then the parsed one. A missing agenda or meeting_link becomes "", and a present one (null included) is kept. |
| Meetings.Revise | app/routes/meeting_crud.py:143-163 | The start time is re-parsed when its key is present and kept otherwise. The end time is re-parsed when truthy and kept otherwise. |
| Meetings.Update | app/routes/meeting_crud.py:128-178 | 404 exactly for an absent id. 400 exactly for a malformed time in the pre-pass or a commit that raises `ValueError`. Every failure leaves the schedule unchanged. 200 exactly when the times parse and the revised row is stored; then only that meeting is replaced, each JSON field by a non-null new value or its old value. |
| Meetings.Delete | app/routes/meeting_crud.py:181-197 | 404 exactly for an absent id, with nothing changed. Otherwise exactly that meeting is removed, and its name and host id are echoed. |
| Meetings.CreateThenGet | app/routes/meeting_crud.py:23-122 | Fetching the id read back from the create link returns the created meeting: same name, start, host and attendees. It has no end time exactly when the request's end_time was falsy. An absent agenda or meeting_link is stored as "", and a present one as sent. |
| Meetings.CreateThenDelete | app/routes/meeting_crud.py:181-197 | Deleting the meeting just created succeeds, restores the schedule and echoes the sent name. |
| Meetings.DeleteThenGet | app/routes/meeting_crud.py:185-190 | After a delete, fetching that id gives 404. |
| Meetings.ReviseIdempotent | app/routes/meeting_crud.py:161-163 | Applying a request's field updates twice gives the same row as applying them once. |
| Meetings.UpdateIdempotent | app/routes/meeting_crud.py:128-168 | Repeating a successful update succeeds and leaves the schedule as the first update did. |
| Meetings.CreateIgnoresFalsyEndTime | app/routes/meeting_crud.py:28-32 | A falsy end_time (absent, null, "") gives the same outcome as leaving the key out. |
| Meetings.UpdateRejectsEmptyEndTime | app/routes/meeting_crud.py:140-141 | An update with end_time "" is answered 400 "Invalid datetime format" with nothing changed. |
| Meetings.NullStartTimeIsServerError | app/routes/meeting_crud.py:138-139 | A null start_time makes both create and update answer 500 with nothing changed. |
| Meetings.AgendaOnlyUpdate | app/routes/meeting_crud.py:143-163 | An update naming only a non-null agenda, whose row the database stores, changes that meeting's agenda and nothing else. |
| Meetings.ListPastLastPage | app/routes/meeting_crud.py:73 | A page past the last lists no meetings rather than failing. |
| Meetings.EveryMeetingListed | app/routes/meeting_crud.py:73-88 | Every stored meeting appears on some page of the list at some position: page `i / per_page + 1` for the meeting with the i-th smallest id. |
| Meetings.ListedAt | app/routes/meeting_crud.py:73-88 | Entry j of a listed page summarises the stored meeting whose id is entry j of the same page of ascending ids. |
| Pagination.ClampPage | app/routes/meeting_crud.py:70-73 | A page below 1 is read as page 1, and any other page is kept. |
| Pagination.ClampPerPage | app/routes/meeting_crud.py:71-73 | A per_page below 1 is read as the library default 20, and any other value is kept. |
| Pagination.OffsetIsProduct | app/routes/meeting_crud.py:73 | The items before page p number `(p - 1) * per_page`. |
| Pagination.PageCount | app/routes/meeting_crud.py:91 | There are no pages exactly when there are no items. |
| Pagination.PageCountIsCeiling | app/routes/meeting_crud.py:91 | The page count is `ceil(total / per_page)`: enough pages hold all items, and one fewer would not. |
| Pagination.MorePagesIff | app/routes/meeting_crud.py:94 | A page is before the last exactly when items remain after it. |
| Pagination.Paginate | app/routes/meeting_crud.py:73-96 | The envelope holds the clamped page and per_page, the total and the page count. The items are the slice after the earlier pages. has_prev holds exactly past page 1, and has_next exactly when items remain. |
| Pagination.Window | app/routes/meeting_crud.py:87 | LIMIT/OFFSET: at most `size` consecutive items from the offset, none past the end. |
| Pagination.SliceOfAscending | app/routes/meeting_crud.py:77-88 | A page of the id-ordered rows is itself id-ordered, drawn from the stored ids and at most per_page long. |
| Pagination.PastLastPageIsEmpty | app/routes/meeting_crud.py:73 | A page past the last one has no items. |
| Pagination.EveryItemOnItsPage | app/routes/meeting_crud.py:73 | Item i is entry `i % per_page` of page `i / per_page + 1`. |
| Pagination.FifteenResultsTenPerPage | app/routes/meeting_crud.py:70-96 | Fifteen items ten to a page make two pages. Page 1 holds 10 items, with a next page and no previous one. Page 2 holds the last 5, with a previous page and no next one. |
| Store.FreshKey | app/models.py:13 | A new row's id is not in use, is at least 1 and exceeds every id in use. |
| Store.FirstWhere | app/routes/admin_auth.py:59 | `.first()` finds a matching row exactly when one exists, and then the one with the least id. |
| Store.Column | app/models.py:7-9 | A `String(n)` column keeps the longest prefix of at most n characters. For a value the column takes, only spaces are lost, and a value without U+0000 stays without it. |
| Store.ColumnKeepsUnpadded | app/models.py:7-9 | A value that does not end in a space is taken exactly when it fits its column, and is then stored whole. |
| Store.Ascending | app/routes/meeting_crud.py:73 | Lists every id exactly once, strictly increasing. |
| Text.IsSpaceIsWhitespace | app/routes/admin_auth.py:33 | The whitespace test of `str.strip()` accepts exactly the 29 characters for which Python's `str.isspace()` is true. |
| Text.Strip | app/routes/admin_auth.py:33 | The result is an infix of the input with no outer whitespace, and only whitespace was removed on either side. |
| Text.StripFixedPoint | app/routes/admin_auth.py:62 | Stripping leaves a string unchanged exactly when it has no outer whitespace. |
| Text.StripIdempotent | app/routes/employee_crud.py:36 | Stripping twice is stripping once. |
| Text.Lower | app/routes/admin_auth.py:23 | Same length, each ASCII capital lowered, and no capital left. |
| Text.LowerStripCommute | app/routes/employee_crud.py:37 | `lower` then `strip` equals `strip` then `lower`. |
| Text.NormaliseEmail | app/routes/admin_auth.py:34 | The normalised email has no outer whitespace and no capitals, and is no longer than the input. |
| Text.NormaliseIdempotent | app/routes/employee_crud.py:25 | Normalising a normalised email changes nothing, so a stored email is found by its own normal form. |
| Text.NatToDecimal | app/routes/meeting_crud.py:45 | `str(id)`: non-empty decimal digits without a leading zero. |
| Text.DecimalRoundTrip | app/routes/meeting_crud.py:45 | Reading back the decimal rendering of n gives n. |
| Credentials.Fits | app/models.py:7-9 | A row fits when its name has at most 50 characters, its email and digest at most 100, and none holds U+0000. The columns take every fitting row. |
| Credentials.Committed | app/routes/auth.py:29-38 | What the columns keep of a row they take: a fitting row, at most as long as the columns, differing from the sent row only by spaces cut off the name and email, with the digest unchanged. |
| Credentials.FittingRowKeptWhole | app/models.py:7-9 | A fitting row is taken and stored as it is. |
| Credentials.AdminRowsKeptWhole | app/routes/admin_auth.py:32-36 | The admin variant's rows are taken exactly when they fit, and are then stored as built, because name and email are stripped. |
| Credentials.Register | app/routes/admin_auth.py:9-49 | A falsy field gives 400, and so does a taken normalised email. 500 for a non-string field or an email the driver cannot bind. 500 also when the columns refuse the row: a value too long other than by trailing spaces, a digest over 100, or U+0000. A stored email already held by another account gives 500 too. Every failure leaves the table unchanged. Otherwise exactly one account is inserted, holding what the columns keep of the normalised name and email, and the digest of the password. The reply echoes the stored name and email. |
| Credentials.Login | app/routes/admin_auth.py:52-74 | Never changes the table. 400 exactly for a falsy field. 401, always with one body, exactly when the email binds and either no account holds it or the hash check refuses the password. 500 exactly for a non-string or unbindable email, or a non-string password once an account is found. A 200 names an account holding the normalised email whose digest accepts the normalised password. |
| Credentials.RegisterKeepsValid | app/routes/admin_auth.py:22-39 | Registration keeps emails unique, every stored email in the variant's normal form and every row within its columns. |
| Credentials.LoginLooksUpFirst | app/routes/admin_auth.py:59-64 | For a body of two string fields: 200 exactly when the email binds and `.first()` finds an account whose digest accepts the password, and that account is the one named; 401 exactly when the email binds and no account is found or the check refuses. |
| Credentials.LoginSucceedsIff | app/routes/auth.py:45-65 | With unique emails, login succeeds exactly when the email binds, some account holds the (normalised) email and its digest accepts the (normalised) password. |
| Credentials.LoginChecksHolder | app/routes/auth.py:52-55 | Once the email finds a stored account, login succeeds exactly when the password is the one hashed into it. |
| Credentials.RegisterThenLogin | app/routes/auth.py:22-55 | After a registration, a login names the new account exactly when two things hold. Its email's normal form is what the email column kept of the registered one. Its password, as login normalises it, is the registered one. |
| Credentials.PaddedAdminPasswordNeverLogsIn | app/routes/admin_auth.py:27-62 | Admin login strips the password, so an account whose registered password had outer whitespace can never log in. |
| Credentials.UserEmailsAreCaseSensitive | app/routes/auth.py:22-23 | In the user variant, any well-typed register request whose email no account holds verbatim registers (201), even when a stored email has the same lower-cased, stripped form. |
| Credentials.AdminEmailVariantRefused | app/routes/admin_auth.py:23-24 | In the admin variant, any register request whose email normalises to the email of a stored (fitting) account is refused with 400, whatever its name and password, and nothing changes. |
| Credentials.WrongPasswordUnauthorized | app/routes/admin_auth.py:59-64 | With unique emails, a login with a stored account's email and a password other than the one hashed into it answers 401 with the body an unknown email gets. |
| Credentials.OverlongNameRefused | app/models.py:7 | Take a name that, after the variant's normalisation, has a character other than a space past the 50th. An otherwise acceptable registration with it fails with 500 and adds nothing. |
| Credentials.PaddedUserNameCut | app/routes/auth.py:29-38 | In the user variant, a name that exceeds 50 characters only by spaces registers (201). Both the stored row and the reply hold its first 50 characters. |
| Credentials.CutEmailLocksOut | app/routes/auth.py:22-55 | In the user variant, after registering an email over 100 characters (so cut by the column), a login with the email as registered answers 401. |
| Employees.EmployeeWith | app/routes/employee_crud.py:25 | The email lookup finds a row exactly when some row holds that email. |
| Employees.ClashesFresh | app/models.py:14-16 | For a new row, a unique-constraint clash means its emp_id or its email is already stored. |
| Employees.Create | app/routes/employee_crud.py:8-61 | A falsy field (emp_id 0 included) gives 400, and so does a stored normalised email. An email the driver cannot bind, an ill-typed or out-of-range field, or a duplicate emp_id gives 500. Every failure leaves the table unchanged. 201 exactly when all checks pass; then one row is inserted and its public fields echoed. |
| Employees.GetOne | app/routes/employee_crud.py:64-80 | 404 exactly for an absent id; otherwise 200 with the row's id, emp_id, name and email, never the password. |
| Employees.Views | app/routes/employee_crud.py:86-95 | One public view per row, each matching its row, in strictly increasing id order. |
| Employees.ViewsCoverStore | app/routes/employee_crud.py:83-97 | Every stored row has an entry in the listing. |
| Employees.GetAll | app/routes/employee_crud.py:83-99 | 200 with every row's public fields exactly once, in id order. Nothing changes. |
| Employees.Merge | app/routes/employee_crud.py:112-117 | emp_id is kept. Name, email and password are replaced only when the request's value is truthy: by the stripped name, the normalised email and the digest of the password. |
| Employees.MergeKeepsNormalEmail | app/routes/employee_crud.py:114-115 | A row whose email is in normal form keeps it in normal form after a merge. |
| Employees.EmpIdOutOfRangeRollsBack | app/models.py:14 | An emp_id beyond the 32-bit `Integer` column passes the handler's checks but fails the commit: 500 and nothing added. |
| Employees.OverlongNameUpdateRollsBack | app/models.py:15 | An update whose stripped name exceeds the 100-character column is rolled back: 500 and the row unchanged. |
| Employees.Update | app/routes/employee_crud.py:102-124 | 404 exactly for an absent id. A truthy non-string field, a clash with another row, or a value too long or holding U+0000 gives 500. Every failure leaves the table unchanged. Otherwise only that row is replaced: emp_id kept, and name, email and password change only when truthy in the request. |
| Employees.Delete | app/routes/employee_crud.py:127-141 | 404 exactly for an absent id, with nothing changed; otherwise exactly that row is removed. |
| Employees.CreateKeepsValid | app/models.py:14-17 | Create keeps emp_id and email unique, every email in normal form and every row within its columns. |
| Employees.UpdateKeepsValid | app/routes/employee_crud.py:112-124 | Update keeps emp_id and email unique, every email in normal form and every row within its columns. |
| Employees.DeleteKeepsValid | app/routes/employee_crud.py:135-136 | Delete keeps emp_id and email unique, every email in normal form and every row within its columns. |
| Employees.UpdateRollsBackIff | app/routes/employee_crud.py:114-124 | A well-typed update of a present row is rolled back exactly when the new email is another row's or the new row does not fit its columns. |
| Employees.DuplicateEmpIdRollsBack | app/routes/employee_crud.py:34-61 | An otherwise acceptable create whose emp_id is already stored fails at commit with 500 and leaves the table unchanged. |
| Employees.CreateThenGet | app/routes/employee_crud.py:45-78 | Fetching a freshly created employee returns the view create answered. |
| Employees.CreateThenDelete | app/routes/employee_crud.py:127-138 | Deleting a freshly created employee restores the table. |
| Employees.UpdateIdempotent | app/routes/employee_crud.py:112-119 | Sending the same update twice succeeds the second time and leaves the table as one update with the second call's hasher, which stands for bcrypt's fresh salt. With the same hasher, the second call changes nothing. |

## Left out

- Request bodies that are absent or not a JSON object, and JSON numbers with a fraction. Every request body is modelled as a decoded JSON object of nulls, booleans, integers, strings, lists and objects.
- `created_at` and every message text. Responses are modelled by their status and their structured fields.
- Rendering instants back with `isoformat()`. Times are opaque instants.
- The ISO 8601 grammar. `Meetings.Parser` is a parameter, and only the failures that matter to the handlers are modelled: a non-string raises TypeError, an unparsable string raises ValueError.
- How bcrypt draws its salt, its cost factor, its 60-character digest length and its truncation of passwords at 72 bytes. A `Crypto.Hasher` hashes with one fixed salt, `Crypto.Sound` states only the check/hash relation, and the digest's fit in its column is a condition of the contracts.
- What makes the database refuse a meeting row at commit, or the driver raise `ValueError` for one (a host_id of the wrong type, a string holding U+0000). The `Meeting` model is not part of this model, so `Meetings.Database` is a parameter.
- Hasher failures. Some bcrypt versions raise `ValueError` for a password holding U+0000, at registration in `generate_password_hash` and at login in `check_password_hash` (`admin_auth.py:62`, `auth.py:54`). The employee handlers would answer that with 500, and the credential handlers leave it to Flask's 500. `Crypto.Hasher.hash` and `Crypto.Hasher.check` are total.
- Credentials.Register: a digest that exceeds its 100 characters only by spaces would be cut by the column; the model refuses it with 500, as it does every digest over 100. bcrypt digests hold no spaces. `Employees.Fits` treats the employee digest the same way.
- Meetings.CreateThenGet: the meeting columns are taken to give back the JSON values as sent. The `Meeting` model is not part of this model, so a column that converts a value is not modelled (an integer `name` read back from a text column as a string, say).
- A failed commit of a delete (`meeting_crud.py:198-203`, `employee_crud.py:139-141`). No constraint of the modelled tables can fail on a delete.
- Failures of reads: a database that cannot be reached, and the catch-all 500s of the get and list handlers.
- Concurrency. Each request runs alone, so two registrations racing for the same email are not modelled.
- Order of unordered queries. `query.all()` and `paginate` without `order_by` are taken to return rows in id order. `.first()` without `order_by` is taken to return the matching row with the least id. The SQL itself promises neither. Under the unique email columns the lookups match at most one row, so only the listing order depends on this.
- Store.FreshKey: picks the largest id in use plus one. A PostgreSQL sequence never reuses the id of a deleted row, and a rolled-back insert also consumes a value, so the real id can be larger. The contracts only use that the id is unused, at least 1 and above every id in use.
- Query argument parsing. `request.args.get(..., type=int)` is modelled as an optional integer, `None` when the argument is absent or not an integer; the string-to-integer parsing itself is left out.
- Flask-SQLAlchemy 2's clamping. The model follows version 3, where a per_page below 1 becomes 20 when error_out is false; version 2 treats per_page 0 differently.
- Text.Lower: lowers only the ASCII capitals, where Python's `str.lower()` lowers every cased Unicode letter.
- Employees.Create: a string emp_id that PostgreSQL would coerce to an integer (`"5"`) is modelled as an ill-typed field answered with 500. PostgreSQL's literal coercion is not modelled.
- Credentials.Register: in the user variant, a numeric or boolean name, which PostgreSQL would cast to text on insert, is modelled as a 500.
- The blueprint registration, routing, configuration and application factory (`app/__init__.py`, `app/config.py`, `app.py`). These include the clash of the two blueprints that are both named `"auth"`.
- The `print(data)` in the employee create handler.

=== FILE: credentials.dfy ===
/**
 Registration and login of credential holders. The admin blueprint
 (app/routes/admin_auth.py) and the user blueprint (app/routes/auth.py)
 run the same flow; they differ only in how the incoming email, name
 and login password are normalised, which `Variant` selects.
 */
module Credentials {
  import opened Values
  import opened Text
  import opened Store
  import opened Crypto

  /** `Admin` lower-cases and strips emails and strips names and login
      passwords; `User` takes every string as it comes. */
  datatype Variant = Admin | User

  function NormEmail(v: Variant, email: string): string {
    match v
    case Admin => NormaliseEmail(email)
    case User => email
  }

  function NormName(v: Variant, name: string): string {
    match v
    case Admin => Strip(name)
    case User => name
  }

  /** The form of the password login hands to the hash check. */
  function LoginPassword(v: Variant, password: string): string {
    match v
    case Admin => Strip(password)
    case User => password
  }

  /** A row of the credential table: name, email and the password's digest. */
  datatype Account = Account(name: string, email: string, password: string)

  type Accounts = Table<Account>

  /** The unique constraint on the email column. */
  ghost predicate UniqueEmails(s: Accounts) {
    forall a, b :: a in s && b in s && s[a].email == s[b].email ==> a == b
  }

  /** Whether an account's email is already in the variant's normal form. */
  function HasNormalEmail(v: Variant): Account -> bool {
    (a: Account) => NormEmail(v, a.email) == a.email
  }

  /** Every stored email is already in the variant's normal form. */
  ghost predicate NormalisedEmails(v: Variant, s: Accounts) {
    Every(s, HasNormalEmail(v))
  }

  /** What every table the handlers leave satisfies: unique emails in the
      variant's normal form, and rows that fit their columns. */
  ghost predicate Valid(v: Variant, s: Accounts) {
    UniqueEmails(s) && NormalisedEmails(v, s) && Every(s, Fits)
  }

  /** Some account holds exactly this email. */
  predicate Taken(s: Accounts, email: string) {
    exists k :: k in s && s[k].email == email
  }

  /** The id of the account `filter_by(email=...).first()` returns. */
  function AccountWith(s: Accounts, email: string): Option<nat> {
    FirstWhere(s, (a: Account) => a.email == email)
  }

  /** The response bodies: the password (plain or hashed) is never part of one. */
  datatype Reply =
    | Failed(error: Error)
    | Registered(id: nat, name: string, email: string)
    | LoggedIn(id: nat, email: string)

  /** The body passes `not data or not data.get("name") or ...` for register. */
  predicate RegisterFilled(data: Payload) {
    data != map[] && Truthy(Get(data, "name")) && Truthy(Get(data, "password")) && Truthy(Get(data, "email"))
  }

  /** The body passes `not data or not data.get("email") or not data.get("password")`. */
  predicate LoginFilled(data: Payload) {
    data != map[] && Truthy(Get(data, "email")) && Truthy(Get(data, "password"))
  }

  /** The account a register request with three string fields describes. */
  function NewAccount(v: Variant, data: Payload, h: Hasher): Account
    requires Get(data, "name").Str? && Get(data, "email").Str? && Get(data, "password").Str?
  {
    Account(NormName(v, Get(data, "name").s), NormEmail(v, Get(data, "email").s), h.hash(Get(data, "password").s))
  }

  /** The row fits the table's columns: a name of at most 50 characters, an
      email and a digest of at most 100, none holding U+0000. Every stored
      row fits, and the columns take a fitting row as it is. */
  predicate Fits(a: Account): (r: bool)
    ensures r ==> Accepted(a)
  {
    && |a.name| <= 50 && |a.email| <= 100 && |a.password| <= 100
    && Bindable(a.name) && Bindable(a.email) && Bindable(a.password)
  }

  /** The columns take the row: name and email exceed their 50 and 100
      characters by spaces at most, the digest fits its 100, and no string
      holds U+0000. Any other row fails at commit. */
  predicate Accepted(a: Account) {
    && Storable(a.name, 50) && Storable(a.email, 100) && |a.password| <= 100
    && Bindable(a.name) && Bindable(a.email) && Bindable(a.password)
  }

  /** The row PostgreSQL keeps of an account its columns take: name and
      email cut to their columns' lengths, losing only spaces. */
  function Committed(a: Account): (k: Account)
    requires Accepted(a)
    ensures Fits(k) && k.password == a.password
    ensures k.name <= a.name && k.email <= a.email
  {
    Account(Column(a.name, 50), Column(a.email, 100), a.password)
  }

  /** A fitting row is stored as it is. */
  lemma FittingRowKeptWhole(a: Account)
    requires Fits(a)
    ensures Accepted(a) && Committed(a) == a
  {
  }

  /** The admin variant strips name and email, so neither ends in a space:
      its rows are taken exactly when they fit, and then stored whole. */
  lemma AdminRowsKeptWhole(data: Payload, h: Hasher)
    requires Get(data, "name").Str? && Get(data, "email").Str? && Get(data, "password").Str?
    ensures var a := NewAccount(Admin, data, h);
            (Accepted(a) <==> Fits(a)) && (Accepted(a) ==> Committed(a) == a)
  {
    var a := NewAccount(Admin, data, h);
    assert Trimmed(a.name) && Trimmed(a.email);
    ColumnKeepsUnpadded(a.name, 50);
    ColumnKeepsUnpadded(a.email, 100);
  }

  /** POST /register. A falsy field gives 400; an email whose normal form is
      taken gives 400; a non-string field or an email the driver cannot bind
      raises inside the handler, and a row the columns do not take or whose
      stored email is taken fails the commit (500); otherwise exactly one
      account is added, holding what the columns keep of the normalised name
      and email, and the digest of the password as sent. The reply reads
      name and email back from the stored row. */
  function Register(v: Variant, data: Payload, s: Accounts, h: Hasher): (r: Outcome<Accounts, Reply>)
    ensures r.status in {StatusCreated, StatusBadRequest, StatusServerError}
    ensures !IsSuccess(r.status) ==> r.store == s && r.body.Failed?
    ensures r.status == StatusBadRequest <==>
              || !RegisterFilled(data)
              || (&& Get(data, "email").Str? && Bindable(NormEmail(v, Get(data, "email").s))
                  && Taken(s, NormEmail(v, Get(data, "email").s)))
    ensures r.status == StatusCreated <==>
              && RegisterFilled(data)
              && Get(data, "name").Str? && Get(data, "email").Str? && Get(data, "password").Str?
              && !Taken(s, NormEmail(v, Get(data, "email").s))
              && Accepted(NewAccount(v, data, h))
              && !Taken(s, Committed(NewAccount(v, data, h)).email)
    ensures r.status == StatusCreated ==>
              && Get(data, "name").Str? && Get(data, "email").Str? && Get(data, "password").Str?
              && r.body.Registered? && Accepted(NewAccount(v, data, h))
              && var stored := Committed(NewAccount(v, data, h));
                 Inserted(s, r.store, r.body.id, stored)
                 && stored.password == h.hash(Get(data, "password").s)
                 && r.body.name == stored.name && r.body.email == stored.email
  {
    var name, email, password := Get(data, "name"), Get(data, "email"), Get(data, "password");
    if !RegisterFilled(data) then
      Outcome(StatusBadRequest, s, Failed(MissingFields))
    else if !email.Str? || !Bindable(NormEmail(v, email.s)) then
      Outcome(StatusServerError, s, Failed(ServerError))
    else if AccountWith(s, NormEmail(v, email.s)).Some? then
      Outcome(StatusBadRequest, s, Failed(EmailExists))
    else if !password.Str? || !name.Str? then
      Outcome(StatusServerError, s, Failed(ServerError))
    else
      var sent := NewAccount(v, data, h);
      if !Accepted(sent) then
        Outcome(StatusServerError, s, Failed(ServerError))
      else
        var stored := Committed(sent);
        if AccountWith(s, stored.email).Some? then
          Outcome(StatusServerError, s, Failed(ServerError))
        else
          var id := FreshKey(s);
          Outcome(StatusCreated, s[id := stored], Registered(id, stored.name, stored.email))
  }

  /** POST /login. It never changes the store. A falsy field gives 400; an
      unknown email and a failed check both give 401 with the same body; a
      non-string email, an email the driver cannot bind, or a non-string
      password for a found account raises (500); a success names the account
      and its stored email, and nothing else. */
  function Login(v: Variant, data: Payload, s: Accounts, h: Hasher): (r: Outcome<Accounts, Reply>)
    ensures r.store == s
    ensures r.status in {StatusOk, StatusBadRequest, StatusUnauthorized, StatusServerError}
    ensures r.status == StatusBadRequest <==> !LoginFilled(data)
    ensures r.status == StatusUnauthorized ==> r.body == Failed(InvalidCredentials)
    ensures r.status == StatusUnauthorized <==>
              && LoginFilled(data) && Get(data, "email").Str? && Bindable(NormEmail(v, Get(data, "email").s))
              && var found := AccountWith(s, NormEmail(v, Get(data, "email").s));
                 || found.None?
                 || (&& Get(data, "password").Str?
                     && !h.check(s[found.value].password, LoginPassword(v, Get(data, "password").s)))
    ensures r.status == StatusServerError <==>
              && LoginFilled(data)
              && (|| !Get(data, "email").Str? || !Bindable(NormEmail(v, Get(data, "email").s))
                  || (AccountWith(s, NormEmail(v, Get(data, "email").s)).Some? && !Get(data, "password").Str?))
    ensures r.status == StatusOk ==>
              && LoginFilled(data) && Get(data, "email").Str? && Get(data, "password").Str?
              && r.body.LoggedIn? && r.body.id in s
              && s[r.body.id].email == NormEmail(v, Get(data, "email").s)
              && h.check(s[r.body.id].password, LoginPassword(v, Get(data, "password").s))
              && r.body.email == s[r.body.id].email
  {
    var email, password := Get(data, "email"), Get(data, "password");
    if !LoginFilled(data) then
      Outcome(StatusBadRequest, s, Failed(MissingFields))
    else if !email.Str? || !Bindable(NormEmail(v, email.s)) then
      Outcome(StatusServerError, s, Failed(ServerError))
    else
      match AccountWith(s, NormEmail(v, email.s))
      case None => Outcome(StatusUnauthorized, s, Failed(InvalidCredentials))
      case Some(id) =>
        if !password.Str? then
          Outcome(StatusServerError, s, Failed(ServerError))
        else if !h.check(s[id].password, LoginPassword(v, password.s)) then
          Outcome(StatusUnauthorized, s, Failed(InvalidCredentials))
        else
          Outcome(StatusOk, s, LoggedIn(id, s[id].email))
  }

  /** A successful registration keeps the email column unique and every
      stored email in normal form. */
  lemma RegisterKeepsValid(v: Variant, data: Payload, s: Accounts, h: Hasher)
    requires Valid(v, s)
    ensures Valid(v, Register(v, data, s, h).store)
  {
    var r := Register(v, data, s, h);
    if r.status == StatusCreated {
      var stored := Committed(NewAccount(v, data, h));
      assert r.store == s[r.body.id := stored] && r.body.id !in s;
      assert NormEmail(v, stored.email) == stored.email by {
        if v == Admin {
          AdminRowsKeptWhole(data, h);
          NormaliseIdempotent(Get(data, "email").s);
        }
      }
      InsertKeepsValid(v, s, r.body.id, stored);
    }
  }

  /** Adding a fitting account whose email is in normal form and not taken
      keeps the table valid. */
  lemma InsertKeepsValid(v: Variant, s: Accounts, id: nat, a: Account)
    requires Valid(v, s)
    requires id !in s && !Taken(s, a.email)
    requires NormEmail(v, a.email) == a.email && Fits(a)
    ensures Valid(v, s[id := a])
  {
    var t := s[id := a];
    InsertKeepsUnique(s, id, a);
    WriteKeepsRows(v, s, id, a);
    assert UniqueEmails(t);
    assert NormalisedEmails(v, t);
    assert Every(t, Fits);
  }

  /** Writing a fitting row with a normal-form email keeps both row-wise
      invariants. */
  lemma WriteKeepsRows(v: Variant, s: Accounts, id: nat, a: Account)
    requires NormalisedEmails(v, s) && Every(s, Fits)
    requires NormEmail(v, a.email) == a.email && Fits(a)
    ensures NormalisedEmails(v, s[id := a]) && Every(s[id := a], Fits)
  {
    WriteKeepsEvery(s, id, a, HasNormalEmail(v));
    WriteKeepsEvery(s, id, a, Fits);
  }

  lemma InsertKeepsUnique(s: Accounts, id: nat, a: Account)
    requires UniqueEmails(s)
    requires id !in s && !Taken(s, a.email)
    ensures UniqueEmails(s[id := a])
  {
    var t := s[id := a];
    forall x, y | x in t && y in t && t[x].email == t[y].email
      ensures x == y
    {
      if x != id && y != id {
        assert t[x] == s[x] && t[y] == s[y];
      }
    }
  }

  /** With unique emails, login succeeds exactly when an account holds the
      normalised email and the hash check accepts the (normalised) password. */
  lemma LoginSucceedsIff(v: Variant, data: Payload, s: Accounts, h: Hasher)
    requires UniqueEmails(s)
    ensures Login(v, data, s, h).status == StatusOk <==>
              && LoginFilled(data) && Get(data, "email").Str? && Get(data, "password").Str?
              && Bindable(NormEmail(v, Get(data, "email").s))
              && exists k :: k in s && s[k].email == NormEmail(v, Get(data, "email").s)
                             && h.check(s[k].password, LoginPassword(v, Get(data, "password").s))
  {
    if LoginFilled(data) && Get(data, "email").Str? && Get(data, "password").Str? {
      var e, pw := NormEmail(v, Get(data, "email").s), LoginPassword(v, Get(data, "password").s);
      LoginLooksUpFirst(v, data, s, h);
      if k :| k in s && s[k].email == e && h.check(s[k].password, pw) {
        HolderIsFirst(s, e, k);
      }
    }
  }

  /** For a body with two string fields, login answers 200 exactly when the
      driver can bind the normalised email and `.first()` finds an account
      for it whose digest the check accepts, and then names that account;
      it answers 401 exactly when the email binds and either no account
      holds it or the check refuses. */
  lemma LoginLooksUpFirst(v: Variant, data: Payload, s: Accounts, h: Hasher)
    requires LoginFilled(data) && Get(data, "email").Str? && Get(data, "password").Str?
    ensures var found := AccountWith(s, NormEmail(v, Get(data, "email").s));
            var l := Login(v, data, s, h);
            && (l.status == StatusOk <==>
                  && Bindable(NormEmail(v, Get(data, "email").s))
                  && found.Some? && h.check(s[found.value].password, LoginPassword(v, Get(data, "password").s)))
            && (l.status == StatusOk ==> l.body.id == found.value)
            && (l.status == StatusUnauthorized <==>
                  && Bindable(NormEmail(v, Get(data, "email").s))
                  && (found.None? || !h.check(s[found.value].password, LoginPassword(v, Get(data, "password").s))))
  {
  }

  /** With unique emails, a login naming a stored account's email (which,
      like every stored string, binds) with a password other than the one
      hashed into it answers 401, with the one body an unknown email also
      gets. */
  lemma WrongPasswordUnauthorized(v: Variant, s: Accounts, h: Hasher, k: nat, p: string, email: string, password: string)
    requires UniqueEmails(s) && Sound(h)
    requires email != "" && password != ""
    requires k in s && Bindable(s[k].email) && s[k].email == NormEmail(v, email) && s[k].password == h.hash(p)
    requires LoginPassword(v, password) != p
    ensures var l := Login(v, LoginBody(email, password), s, h);
            l.status == StatusUnauthorized && l.body == Failed(InvalidCredentials)
  {
    var body, e := LoginBody(email, password), NormEmail(v, email);
    assert LoginFilled(body) && Bindable(e);
    HolderIsFirst(s, e, k);
    assert !h.check(s[k].password, LoginPassword(v, password));
  }

  /** With unique emails, the account holding `e` is the one `.first()` finds. */
  lemma HolderIsFirst(s: Accounts, e: string, k: nat)
    requires UniqueEmails(s) && k in s && s[k].email == e
    ensures AccountWith(s, e) == Some(k)
  {
  }

  /** The body a client sends to /login. */
  function LoginBody(email: string, password: string): (data: Payload)
    ensures Get(data, "email") == Str(email) && Get(data, "password") == Str(password)
  {
    map["email" := Str(email), "password" := Str(password)]
  }

  /** After registering (`email`, `password`), a login names the new account
      exactly when its email's normal form is what the email column kept of
      the registered one and its password, as login normalises it, is the
      registered one. For the admin variant a case or whitespace variant of
      the email therefore logs in. */
  lemma RegisterThenLogin(v: Variant, data: Payload, s: Accounts, h: Hasher, email: string, password: string)
    requires Sound(h)
    requires Register(v, data, s, h).status == StatusCreated
    requires email != "" && password != ""
    ensures var r := Register(v, data, s, h);
            var l := Login(v, LoginBody(email, password), r.store, h);
            (l.status == StatusOk && l.body.id == r.body.id) <==>
              && NormEmail(v, email) == Column(NormEmail(v, Get(data, "email").s), 100)
              && LoginPassword(v, password) == Get(data, "password").s
  {
    var r := Register(v, data, s, h);
    var id := r.body.id;
    var stored := Committed(NewAccount(v, data, h));
    var e := stored.email;
    var p := Get(data, "password").s;
    assert r.store == s[id := stored] && id !in s;
    assert e == Column(NormEmail(v, Get(data, "email").s), 100) && stored.password == h.hash(p);
    assert !Taken(s, e);
    if NormEmail(v, email) == e {
      OnlyHolder(s, r.store, id, e);
      LoginChecksHolder(v, r.store, h, email, password, id, p);
    }
  }

  /** The assumptions of `RegisterThenLogin` can be met: with the identity
      hasher, which is sound, a first user registration succeeds. */
  lemma RegisterThenLoginApplies()
    ensures var h := Identity;
            var data := map["name" := Str("Ada"), "email" := Str("ada@example.org"), "password" := Str("pw")];
            Sound(h) && Register(User, data, map[], h).status == StatusCreated
  {
    IdentityIsSound();
    var data := map["name" := Str("Ada"), "email" := Str("ada@example.org"), "password" := Str("pw")];
    assert Get(data, "name") == Str("Ada") && Get(data, "email") == Str("ada@example.org");
    assert Get(data, "password") == Str("pw");
    assert RegisterFilled(data);
    assert !Taken(map[], "ada@example.org");
    var a := NewAccount(User, data, Identity);
    assert a == Account("Ada", "ada@example.org", "pw");
    assert Fits(a);
  }

  /** When `.first()` finds account `id`, a stored row that fits its
      columns, login succeeds exactly when the
      password, as login normalises it, is the one hashed into the account. */
  lemma LoginChecksHolder(v: Variant, t: Accounts, h: Hasher, email: string, password: string, id: nat, p: string)
    requires Sound(h)
    requires email != "" && password != ""
    requires AccountWith(t, NormEmail(v, email)) == Some(id) && Fits(t[id])
    requires t[id].password == h.hash(p)
    ensures var l := Login(v, LoginBody(email, password), t, h);
            (l.status == StatusOk && l.body.id == id) <==> LoginPassword(v, password) == p
  {
    var body := LoginBody(email, password);
    assert LoginFilled(body);
    assert t[id].email == NormEmail(v, email);
    LoginLooksUpFirst(v, body, t, h);
    assert h.check(h.hash(p), LoginPassword(v, password)) <==> p == LoginPassword(v, password);
  }

  /** The only account holding `e` is the one `.first()` returns. */
  lemma OnlyHolder(s: Accounts, t: Accounts, id: nat, e: string)
    requires id !in s && !Taken(s, e)
    requires id in t && t == s[id := t[id]] && t[id].email == e
    ensures AccountWith(t, e) == Some(id)
  {
  }

  /** For the admin variant login strips the password but register hashed it
      unstripped: an account whose password has outer whitespace can never
      log in, whatever is sent. */
  lemma PaddedAdminPasswordNeverLogsIn(data: Payload, s: Accounts, h: Hasher, k: nat, password: string)
    requires Sound(h)
    requires k in s && s[k].password == h.hash(password)
    requires !Trimmed(password)
    ensures var l := Login(Admin, data, s, h);
            !(l.status == StatusOk && l.body.id == k)
  {
  }

  /** The user variant compares emails exactly: a request whose email no
      account holds verbatim opens a new account, even when a stored email
      has the same normal form (it differs only in case or surrounding
      whitespace). */
  lemma UserEmailsAreCaseSensitive(data: Payload, s: Accounts, h: Hasher, k: nat)
    requires RegisterFilled(data)
    requires Get(data, "name").Str? && Get(data, "email").Str? && Get(data, "password").Str?
    requires Fits(NewAccount(User, data, h))
    requires k in s && NormaliseEmail(s[k].email) == NormaliseEmail(Get(data, "email").s)
    requires forall j :: j in s ==> s[j].email != Get(data, "email").s
    ensures Register(User, data, s, h).status == StatusCreated
  {
  }

  /** The admin variant normalises first: a request whose email has the
      normal form of a stored (hence fitting) email is refused with 400, whatever its case
      or surrounding whitespace and whatever its name and password. */
  lemma AdminEmailVariantRefused(data: Payload, s: Accounts, h: Hasher, k: nat)
    requires RegisterFilled(data) && Get(data, "email").Str?
    requires k in s && s[k].email == NormaliseEmail(Get(data, "email").s) && Fits(s[k])
    ensures Register(Admin, data, s, h).status == StatusBadRequest
    ensures Register(Admin, data, s, h).store == s
  {
  }

  /** A name that, once normalised, has a character other than a space past
      the 50-character column fails the commit: an otherwise acceptable
      registration answers 500 and adds nothing. */
  lemma OverlongNameRefused(v: Variant, data: Payload, s: Accounts, h: Hasher)
    requires RegisterFilled(data)
    requires Get(data, "name").Str? && Get(data, "email").Str? && Get(data, "password").Str?
    requires !Taken(s, NormEmail(v, Get(data, "email").s))
    requires !Storable(NormName(v, Get(data, "name").s), 50)
    ensures Register(v, data, s, h).status == StatusServerError
    ensures Register(v, data, s, h).store == s
  {
    assert !Accepted(NewAccount(v, data, h));
  }

  /** The user variant stores the name as sent, so a name that exceeds its
      column only by spaces is cut to 50 characters: the registration
      succeeds, and both the row and the reply hold the cut name. */
  lemma PaddedUserNameCut(data: Payload, s: Accounts, h: Hasher)
    requires RegisterFilled(data)
    requires Get(data, "name").Str? && Get(data, "email").Str? && Get(data, "password").Str?
    requires Accepted(NewAccount(User, data, h))
    requires |Get(data, "email").s| <= 100 && !Taken(s, Get(data, "email").s)
    requires |Get(data, "name").s| > 50
    ensures var r := Register(User, data, s, h);
            && r.status == StatusCreated
            && r.body.Registered? && r.body.id in r.store
            && r.store[r.body.id].name == Get(data, "name").s[..50]
            && r.body.name == Get(data, "name").s[..50]
  {
    var a := NewAccount(User, data, h);
    assert Committed(a).email == a.email;
  }

  /** The user variant looks emails up as sent: after registering an email
      that exceeds its column only by spaces, which the column cuts off, a
      login with the email as registered finds no account and answers 401. */
  lemma CutEmailLocksOut(data: Payload, s: Accounts, h: Hasher, password: string)
    requires Register(User, data, s, h).status == StatusCreated
    requires |Get(data, "email").s| > 100 && password != ""
    ensures var r := Register(User, data, s, h);
            var l := Login(User, LoginBody(Get(data, "email").s, password), r.store, h);
            l.status == StatusUnauthorized && l.body == Failed(InvalidCredentials)
  {
    var r := Register(User, data, s, h);
    var e := Get(data, "email").s;
    var stored := Committed(NewAccount(User, data, h));
    assert r.store == s[r.body.id := stored] && !Taken(s, e);
    assert |stored.email| == 100;
    assert !Taken(r.store, e);
    assert LoginFilled(LoginBody(e, password));
  }
}

=== FILE: crypto.dfy ===
/**
 The password-hashing library (bcrypt), reduced to its two entry points.
 A `Hasher` hashes with one fixed salt, so `hash` is a function of the
 plaintext; calls made with different salts are modelled by different
 hashers. `Sound` states what the handlers rely on.
 */
module Crypto {

  /** `generate_password_hash` as `hash`, `check_password_hash(digest, candidate)` as `check`. */
  datatype Hasher = Hasher(hash: string -> string, check: (string, string) -> bool)

  /** A digest matches exactly the plaintext it was made from. */
  ghost predicate Sound(h: Hasher) {
    forall p, q :: h.check(h.hash(p), q) <==> p == q
  }

  /** The plaintext as its own digest, checked by equality. */
  const Identity: Hasher := Hasher(p => p, (d, q) => d == q)

  /** The assumption can be met: the identity hasher is sound. */
  lemma IdentityIsSound()
    ensures Sound(Identity)
  {
  }
}

=== FILE: employees.dfy ===
/**
 The employee store of app/routes/employee_crud.py over the Employee
 table of app/models.py: create, get, list, update and delete by
 surrogate id. The table keeps emp_id and emp_email unique; the create
 handler checks the email itself, and every other clash is left to the
 database, whose failed commit is rolled back into a 500.
 */
module Employees {
  import opened Values
  import opened Text
  import opened Store
  import opened Crypto

  /** A row: the externally supplied emp_id, name, normalised email and password digest. */
  datatype Employee = Employee(empId: int, name: string, email: string, password: string)

  type Staff = Table<Employee>

  /** The unique constraint on emp_id. */
  ghost predicate UniqueEmpIds(s: Staff) {
    forall a, b :: a in s && b in s && s[a].empId == s[b].empId ==> a == b
  }

  /** The unique constraint on emp_email. */
  ghost predicate UniqueEmails(s: Staff) {
    forall a, b :: a in s && b in s && s[a].email == s[b].email ==> a == b
  }

  /** The row's email is in the normal form the handlers write. */
  predicate HasNormalEmail(e: Employee) {
    NormaliseEmail(e.email) == e.email
  }

  /** Every stored email is in the normal form the handlers write. */
  ghost predicate NormalisedEmails(s: Staff) {
    Every(s, HasNormalEmail)
  }

  /** What every table the handlers leave satisfies: both unique
      constraints, emails in normal form, and rows that fit their columns. */
  ghost predicate Valid(s: Staff) {
    UniqueEmpIds(s) && UniqueEmails(s) && NormalisedEmails(s) && Every(s, Fits)
  }

  predicate EmailTaken(s: Staff, email: string) {
    exists k :: k in s && s[k].email == email
  }

  predicate EmpIdTaken(s: Staff, empId: int) {
    exists k :: k in s && s[k].empId == empId
  }

  /** Writing `e` under key `k` would break a unique constraint: another row
      already has its emp_id or its email. */
  predicate Clashes(s: Staff, k: nat, e: Employee) {
    exists j :: j in s && j != k && (s[j].empId == e.empId || s[j].email == e.email)
  }

  /** The row fits the table's columns: emp_id within PostgreSQL's 32-bit
      `Integer`, name, email and digest of at most 100 characters, none
      holding U+0000. Any other row fails at commit. */
  predicate Fits(e: Employee) {
    && -0x8000_0000 <= e.empId < 0x8000_0000
    && |e.name| <= 100 && |e.email| <= 100 && |e.password| <= 100
    && Bindable(e.name) && Bindable(e.email) && Bindable(e.password)
  }

  /** The id `filter_by(emp_email=...).first()` returns, if any. */
  function EmployeeWith(s: Staff, email: string): (r: Option<nat>)
    ensures r.Some? <==> EmailTaken(s, email)
  {
    FirstWhere(s, (e: Employee) => e.email == email)
  }

  /** For a key not in use, a clash is an emp_id or an email already stored. */
  lemma ClashesFresh(s: Staff, id: nat, e: Employee)
    requires id !in s
    ensures Clashes(s, id, e) <==> EmpIdTaken(s, e.empId) || EmailTaken(s, e.email)
  {
    if EmpIdTaken(s, e.empId) {
      var k :| k in s && s[k].empId == e.empId;
      assert k != id;
    }
    if EmailTaken(s, e.email) {
      var k :| k in s && s[k].email == e.email;
      assert k != id;
    }
  }

  /** What get and list expose of a row: never the password. */
  datatype View = View(id: nat, empId: int, name: string, email: string)

  function ViewOf(id: nat, e: Employee): View {
    View(id, e.empId, e.name, e.email)
  }

  datatype Reply =
    | Failed(error: Error)
    | Created(employee: View)
    | Found(employee: View)
    | Listed(employees: seq<View>)
    | Updated
    | Deleted

  /** The body passes the create handler's truthiness check on all four fields. */
  predicate CreateFilled(data: Payload) {
    && data != map[]
    && Truthy(Get(data, "emp_id"))
    && Truthy(Get(data, "emp_name"))
    && Truthy(Get(data, "emp_password"))
    && Truthy(Get(data, "emp_email"))
  }

  /** The fields have the types the handler and the database need: strings
      for name, email and password, an integer for emp_id. */
  predicate CreateTyped(data: Payload) {
    && Get(data, "emp_id").Int?
    && Get(data, "emp_name").Str?
    && Get(data, "emp_password").Str?
    && Get(data, "emp_email").Str?
  }

  /** The row a well-typed create request describes. */
  function NewEmployee(data: Payload, h: Hasher): Employee
    requires CreateTyped(data)
  {
    Employee(Get(data, "emp_id").i,
             Strip(Get(data, "emp_name").s),
             NormaliseEmail(Get(data, "emp_email").s),
             h.hash(Get(data, "emp_password").s))
  }

  /** POST /create-employee. A falsy field (emp_id 0 included) gives 400; an
      email whose normal form is stored gives 400; an email the driver
      cannot bind, a duplicate emp_id, an ill-typed field or a value out of
      its column's range fails inside the handler, is rolled back and gives
      500; otherwise exactly one row is added. */
  function Create(data: Payload, s: Staff, h: Hasher): (r: Outcome<Staff, Reply>)
    ensures r.status in {StatusCreated, StatusBadRequest, StatusServerError}
    ensures !IsSuccess(r.status) ==> r.store == s && r.body.Failed?
    ensures r.status == StatusBadRequest <==>
              || !CreateFilled(data)
              || (&& Get(data, "emp_email").Str? && Bindable(NormaliseEmail(Get(data, "emp_email").s))
                  && EmailTaken(s, NormaliseEmail(Get(data, "emp_email").s)))
    ensures r.status == StatusCreated <==>
              && CreateFilled(data) && CreateTyped(data)
              && !EmailTaken(s, NewEmployee(data, h).email)
              && !EmpIdTaken(s, NewEmployee(data, h).empId)
              && Fits(NewEmployee(data, h))
    ensures r.status == StatusCreated ==>
              && CreateTyped(data) && r.body.Created?
              && Inserted(s, r.store, r.body.employee.id, NewEmployee(data, h))
              && r.body.employee == ViewOf(r.body.employee.id, NewEmployee(data, h))
  {
    var email := Get(data, "emp_email");
    if !CreateFilled(data) then
      Outcome(StatusBadRequest, s, Failed(MissingFields))
    else if !email.Str? || !Bindable(NormaliseEmail(email.s)) then
      Outcome(StatusServerError, s, Failed(ServerError))
    else if EmployeeWith(s, NormaliseEmail(email.s)).Some? then
      Outcome(StatusBadRequest, s, Failed(EmailExists))
    else if !CreateTyped(data) then
      Outcome(StatusServerError, s, Failed(ServerError))
    else
      var e := NewEmployee(data, h);
      var id := FreshKey(s);
      ClashesFresh(s, id, e);
      if Clashes(s, id, e) || !Fits(e) then
        Outcome(StatusServerError, s, Failed(ServerError))
      else
        Outcome(StatusCreated, s[id := e], Created(ViewOf(id, e)))
  }

  /** GET /employees/<id>: the row's public fields, or 404. */
  function GetOne(id: nat, s: Staff): (r: Outcome<Staff, Reply>)
    ensures r.store == s
    ensures r.status == StatusNotFound <==> id !in s
    ensures r.status != StatusNotFound ==>
              && r.status == StatusOk && r.body.Found?
              && r.body.employee.id == id && r.body.employee.empId == s[id].empId
              && r.body.employee.name == s[id].name && r.body.employee.email == s[id].email
  {
    if id !in s then Outcome(StatusNotFound, s, Failed(NotFound))
    else Outcome(StatusOk, s, Found(ViewOf(id, s[id])))
  }

  /** The public fields of every row, in ascending id order. */
  function Views(s: Staff): (r: seq<View>)
    ensures |r| == |s|
    ensures forall i :: 0 <= i < |r| ==> r[i].id in s && r[i] == ViewOf(r[i].id, s[r[i].id])
    ensures forall i, j :: 0 <= i < j < |r| ==> r[i].id < r[j].id
  {
    var ids := Ascending(s.Keys);
    assert |s.Keys| == |s|;
    ViewsOf(s, ids)
  }

  /** The public fields of the rows under `ids`, in that order. */
  function ViewsOf(s: Staff, ids: seq<nat>): (r: seq<View>)
    requires forall i :: 0 <= i < |ids| ==> ids[i] in s
    ensures |r| == |ids|
    ensures forall i :: 0 <= i < |ids| ==> r[i] == ViewOf(ids[i], s[ids[i]])
  {
    seq(|ids|, i requires 0 <= i < |ids| => ViewOf(ids[i], s[ids[i]]))
  }

  /** Every stored row has its entry in `Views`. */
  lemma ViewsCoverStore(s: Staff)
    ensures forall k :: k in s ==> exists i :: 0 <= i < |Views(s)| && Views(s)[i].id == k
  {
    var ids := Ascending(s.Keys);
    var views := Views(s);
    forall k | k in s
      ensures exists i :: 0 <= i < |views| && views[i].id == k
    {
      var i :| 0 <= i < |ids| && ids[i] == k;
      assert views[i].id == k;
    }
  }

  /** GET /employees: one entry per stored row, in id order. */
  function GetAll(s: Staff): (r: Outcome<Staff, Reply>)
    ensures r.store == s && r.status == StatusOk && r.body.Listed?
    ensures ListsEvery(s, r.body.employees)
  {
    ViewsCoverStore(s);
    Outcome(StatusOk, s, Listed(Views(s)))
  }

  /** `views` holds the public fields of every row of `s` exactly once, in id order. */
  ghost predicate ListsEvery(s: Staff, views: seq<View>) {
    && |views| == |s|
    && (forall i :: 0 <= i < |views| ==> views[i].id in s && views[i] == ViewOf(views[i].id, s[views[i].id]))
    && (forall k :: k in s ==> exists i :: 0 <= i < |views| && views[i].id == k)
    && (forall i, j :: 0 <= i < j < |views| ==> views[i].id < views[j].id)
  }

  /** The row an update leaves under `id`: each of name, email and password is
      replaced only when the request's value is truthy; emp_id never changes. */
  function Merge(row: Employee, data: Payload, h: Hasher): (r: Employee)
    requires !Truthy(Get(data, "emp_name")) || Get(data, "emp_name").Str?
    requires !Truthy(Get(data, "emp_email")) || Get(data, "emp_email").Str?
    requires !Truthy(Get(data, "emp_password")) || Get(data, "emp_password").Str?
    ensures r.empId == row.empId
    ensures Truthy(Get(data, "emp_name")) ==> r.name == Strip(Get(data, "emp_name").s)
    ensures !Truthy(Get(data, "emp_name")) ==> r.name == row.name
    ensures Truthy(Get(data, "emp_email")) ==> r.email == NormaliseEmail(Get(data, "emp_email").s)
    ensures !Truthy(Get(data, "emp_email")) ==> r.email == row.email
    ensures Truthy(Get(data, "emp_password")) ==> r.password == h.hash(Get(data, "emp_password").s)
    ensures !Truthy(Get(data, "emp_password")) ==> r.password == row.password
  {
    var name, email, password := Get(data, "emp_name"), Get(data, "emp_email"), Get(data, "emp_password");
    Employee(row.empId,
             if Truthy(name) then Strip(name.s) else row.name,
             if Truthy(email) then NormaliseEmail(email.s) else row.email,
             if Truthy(password) then h.hash(password.s) else row.password)
  }

  /** Every truthy field of an update request is a string. */
  predicate UpdateTyped(data: Payload) {
    && (!Truthy(Get(data, "emp_name")) || Get(data, "emp_name").Str?)
    && (!Truthy(Get(data, "emp_email")) || Get(data, "emp_email").Str?)
    && (!Truthy(Get(data, "emp_password")) || Get(data, "emp_password").Str?)
  }

  /** PUT /employee/<id>. An absent id gives 404; a truthy non-string field or
      a clash with another row (an email held elsewhere) or a value too long
      for its column fails, is rolled back and gives 500; otherwise only the
      row under `id` changes. */
  function Update(id: nat, data: Payload, s: Staff, h: Hasher): (r: Outcome<Staff, Reply>)
    ensures r.status in {StatusOk, StatusNotFound, StatusServerError}
    ensures !IsSuccess(r.status) ==> r.store == s && r.body.Failed?
    ensures r.status == StatusNotFound <==> id !in s
    ensures r.status == StatusOk <==>
              id in s && UpdateTyped(data) && !Clashes(s, id, Merge(s[id], data, h)) && Fits(Merge(s[id], data, h))
    ensures r.status == StatusOk ==>
              && UpdateTyped(data) && r.body == Updated
              && Replaced(s, r.store, id, Merge(s[id], data, h))
              && r.store[id].empId == s[id].empId
              && (r.store[id].name != s[id].name ==> Truthy(Get(data, "emp_name")))
              && (r.store[id].email != s[id].email ==> Truthy(Get(data, "emp_email")))
              && (r.store[id].password != s[id].password ==> Truthy(Get(data, "emp_password")))
  {
    if id !in s then
      Outcome(StatusNotFound, s, Failed(NotFound))
    else if !UpdateTyped(data) then
      Outcome(StatusServerError, s, Failed(ServerError))
    else
      Write(id, Merge(s[id], data, h), s)
  }

  /** The update's commit of row `e` under `id`: rolled back into a 500 when
      it clashes with another row or does not fit its columns. */
  function Write(id: nat, e: Employee, s: Staff): (r: Outcome<Staff, Reply>)
    ensures r.status == StatusOk <==> !Clashes(s, id, e) && Fits(e)
  {
    if Clashes(s, id, e) || !Fits(e) then
      Outcome(StatusServerError, s, Failed(ServerError))
    else
      Outcome(StatusOk, s[id := e], Updated)
  }

  /** DELETE /employee/<id>: 404 for an absent id, otherwise exactly that row goes. */
  function Delete(id: nat, s: Staff): (r: Outcome<Staff, Reply>)
    ensures r.status in {StatusOk, StatusNotFound}
    ensures r.status == StatusNotFound <==> id !in s
    ensures r.status == StatusNotFound ==> r.store == s
    ensures r.status == StatusOk ==> Removed(s, r.store, id) && r.body == Deleted
  {
    if id !in s then Outcome(StatusNotFound, s, Failed(NotFound))
    else Outcome(StatusOk, s - {id}, Deleted)
  }

  /** Create keeps both unique constraints and the email normal form. */
  lemma CreateKeepsValid(data: Payload, s: Staff, h: Hasher)
    requires Valid(s)
    ensures Valid(Create(data, s, h).store)
  {
    var r := Create(data, s, h);
    if r.status == StatusCreated {
      var e := NewEmployee(data, h);
      NormaliseIdempotent(Get(data, "emp_email").s);
      InsertKeepsValid(s, r.body.employee.id, e);
    }
  }

  lemma InsertKeepsValid(s: Staff, id: nat, e: Employee)
    requires Valid(s) && id !in s
    requires !EmailTaken(s, e.email) && !EmpIdTaken(s, e.empId)
    requires HasNormalEmail(e) && Fits(e)
    ensures Valid(s[id := e])
  {
    WriteKeepsValid(s, id, e);
  }

  /** An update keeps both unique constraints: a clash is rolled back. */
  lemma UpdateKeepsValid(id: nat, data: Payload, s: Staff, h: Hasher)
    requires Valid(s)
    ensures Valid(Update(id, data, s, h).store)
  {
    var r := Update(id, data, s, h);
    if r.status == StatusOk {
      var e := Merge(s[id], data, h);
      assert r.store == s[id := e];
      assert !Clashes(s, id, e);
      if Truthy(Get(data, "emp_email")) {
        NormaliseIdempotent(Get(data, "emp_email").s);
      }
      WriteKeepsValid(s, id, e);
    }
  }

  /** Writing a fitting row that clashes with no other row, with its email
      in normal form, keeps the table valid. */
  lemma WriteKeepsValid(s: Staff, id: nat, e: Employee)
    requires Valid(s)
    requires forall j :: j in s && j != id ==> s[j].empId != e.empId && s[j].email != e.email
    requires HasNormalEmail(e) && Fits(e)
    ensures Valid(s[id := e])
  {
    WriteKeepsUniqueEmpIds(s, id, e);
    WriteKeepsUniqueEmails(s, id, e);
    WriteKeepsEvery(s, id, e, HasNormalEmail);
    WriteKeepsEvery(s, id, e, Fits);
  }

  lemma WriteKeepsUniqueEmpIds(s: Staff, id: nat, e: Employee)
    requires UniqueEmpIds(s)
    requires forall j :: j in s && j != id ==> s[j].empId != e.empId
    ensures UniqueEmpIds(s[id := e])
  {
    var t := s[id := e];
    forall a, b | a in t && b in t && t[a].empId == t[b].empId
      ensures a == b
    {
      if a != id && b != id {
        assert t[a] == s[a] && t[b] == s[b];
      }
    }
  }

  lemma WriteKeepsUniqueEmails(s: Staff, id: nat, e: Employee)
    requires UniqueEmails(s)
    requires forall j :: j in s && j != id ==> s[j].email != e.email
    ensures UniqueEmails(s[id := e])
  {
    var t := s[id := e];
    forall a, b | a in t && b in t && t[a].email == t[b].email
      ensures a == b
    {
      if a != id && b != id {
        assert t[a] == s[a] && t[b] == s[b];
      }
    }
  }

  /** Deleting a row keeps both unique constraints. */
  lemma DeleteKeepsValid(id: nat, s: Staff)
    requires Valid(s)
    ensures Valid(Delete(id, s).store)
  {
  }

  /** With the constraints holding, an update of a present row with well-typed
      fields is rolled back exactly when its new email is another row's or
      the new row does not fit its columns. */
  lemma UpdateRollsBackIff(id: nat, data: Payload, s: Staff, h: Hasher)
    requires Valid(s) && id in s && UpdateTyped(data)
    ensures Update(id, data, s, h).status == StatusServerError <==>
              || !Fits(Merge(s[id], data, h))
              || (&& Truthy(Get(data, "emp_email"))
                  && exists j :: j in s && j != id && s[j].email == NormaliseEmail(Get(data, "emp_email").s))
  {
    var e := Merge(s[id], data, h);
    ClashIsEmailElsewhere(s, id, e);
  }

  /** A row that keeps its emp_id clashes exactly when another row holds its
      email, which cannot be its own old email. */
  lemma ClashIsEmailElsewhere(s: Staff, id: nat, e: Employee)
    requires UniqueEmpIds(s) && UniqueEmails(s) && id in s
    requires e.empId == s[id].empId
    ensures Clashes(s, id, e) <==> exists j :: j in s && j != id && s[j].email == e.email
    ensures e.email == s[id].email ==> !Clashes(s, id, e)
  {
  }

  /** A request with an emp_id some row already has, and otherwise
      acceptable, reaches the commit, fails there and leaves the store as it was. */
  lemma DuplicateEmpIdRollsBack(data: Payload, s: Staff, h: Hasher, k: nat)
    requires CreateFilled(data) && CreateTyped(data)
    requires !EmailTaken(s, NormaliseEmail(Get(data, "emp_email").s))
    requires k in s && s[k].empId == Get(data, "emp_id").i
    ensures Create(data, s, h).status == StatusServerError
    ensures Create(data, s, h).store == s
  {
  }

  /** Fetching a freshly created employee returns what create answered. */
  lemma CreateThenGet(data: Payload, s: Staff, h: Hasher)
    requires Create(data, s, h).status == StatusCreated
    ensures var r := Create(data, s, h);
            GetOne(r.body.employee.id, r.store).body == Found(r.body.employee)
  {
  }

  /** Deleting a freshly created employee restores the store. */
  lemma CreateThenDelete(data: Payload, s: Staff, h: Hasher)
    requires Create(data, s, h).status == StatusCreated
    ensures var r := Create(data, s, h);
            Delete(r.body.employee.id, r.store).store == s
  {
    var r := Create(data, s, h);
    RemoveInserted(s, r.store, r.body.employee.id, NewEmployee(data, h));
  }

  /** Sending the same update twice leaves the store as one update sent with
      the second call's hasher. bcrypt salts every call, so the two calls
      are modelled by two hashers `h` and `h2`, each of which the update
      alone would accept; with `h2 == h` the second call changes nothing. */
  lemma UpdateIdempotent(id: nat, data: Payload, s: Staff, h: Hasher, h2: Hasher)
    requires Update(id, data, s, h).status == StatusOk
    requires Update(id, data, s, h2).status == StatusOk
    ensures var once := Update(id, data, s, h).store;
            Update(id, data, once, h2).status == StatusOk
            && Update(id, data, once, h2).store == Update(id, data, s, h2).store
  {
    var e := Merge(s[id], data, h);
    assert Update(id, data, s, h).store == s[id := e];
    MergeTwice(s[id], data, h, h2);
    WriteIgnoresOwnRow(id, Merge(s[id], data, h2), s, e);
  }

  /** Whether a write of `e` under `k` commits, and what it leaves, does not
      depend on the row now stored under `k`. */
  lemma WriteIgnoresOwnRow(k: nat, e: Employee, s: Staff, previous: Employee)
    ensures Write(k, e, s[k := previous]).status == Write(k, e, s).status
    ensures Write(k, e, s).status == StatusOk ==> Write(k, e, s[k := previous]).store == Write(k, e, s).store
  {
    ClashesIgnoresOwnRow(s, k, e, previous);
    assert s[k := previous][k := e] == s[k := e];
  }

  /** A merged row keeps its email in normal form: a new email is normalised. */
  lemma MergeKeepsNormalEmail(row: Employee, data: Payload, h: Hasher)
    requires UpdateTyped(data) && HasNormalEmail(row)
    ensures HasNormalEmail(Merge(row, data, h))
  {
    if Truthy(Get(data, "emp_email")) {
      NormaliseIdempotent(Get(data, "emp_email").s);
    }
  }

  /** Merging a request into a row it was already merged into gives the row
      the second merge alone gives: every field it writes, it overwrites. */
  lemma MergeTwice(row: Employee, data: Payload, h: Hasher, h2: Hasher)
    requires UpdateTyped(data)
    ensures Merge(Merge(row, data, h), data, h2) == Merge(row, data, h2)
  {
  }

  /** Whether writing `e` under `k` clashes does not depend on the row now under `k`. */
  lemma ClashesIgnoresOwnRow(s: Staff, k: nat, e: Employee, previous: Employee)
    ensures Clashes(s[k := previous], k, e) == Clashes(s, k, e)
  {
    var t := s[k := previous];
    if Clashes(t, k, e) {
      var j :| j in t && j != k && (t[j].empId == e.empId || t[j].email == e.email);
      assert j in s && s[j] == t[j];
    }
    if Clashes(s, k, e) {
      var j :| j in s && j != k && (s[j].empId == e.empId || s[j].email == e.email);
      assert j in t && t[j] == s[j];
    }
  }

  /** An emp_id beyond PostgreSQL's 32-bit `Integer` passes the handler's own
      checks but fails the commit: 500, and nothing is added. */
  lemma EmpIdOutOfRangeRollsBack(data: Payload, s: Staff, h: Hasher)
    requires CreateFilled(data) && CreateTyped(data)
    requires !EmailTaken(s, NormaliseEmail(Get(data, "emp_email").s))
    requires Get(data, "emp_id").i >= 0x8000_0000
    ensures Create(data, s, h).status == StatusServerError
    ensures Create(data, s, h).store == s
  {
  }

  /** An update whose stripped name exceeds the 100-character column is
      rolled back: 500, and the row keeps its old values. */
  lemma OverlongNameUpdateRollsBack(id: nat, data: Payload, s: Staff, h: Hasher)
    requires id in s && UpdateTyped(data)
    requires Truthy(Get(data, "emp_name")) && |Strip(Get(data, "emp_name").s)| > 100
    ensures Update(id, data, s, h).status == StatusServerError
    ensures Update(id, data, s, h).store == s
  {
  }
}

=== FILE: meetings.dfy ===
/**
 The meeting lifecycle of app/routes/meeting_crud.py: create, list with
 pagination, get, partial update and delete by id. Datetime parsing and
 the database's answer to a commit are parameters; every
 failure path answers before the store changes or is rolled back.
 */
module Meetings {
  import opened Values
  import opened Text
  import opened Store
  import opened Pagination

  /** A point in time. How ISO 8601 text denotes one is not modelled. */
  datatype Instant = Instant(ticks: int)

  /** `datetime.fromisoformat` on a string: None where it raises ValueError. */
  type Parser = string -> Option<Instant>

  /** A row of the Meeting table. Name, host id, attendees, agenda and link
      are stored as the request sent them; the times are parsed. */
  datatype Meeting = Meeting(
    name: Json,
    hostId: Json,
    attendees: Json,
    start: Instant,
    end: Option<Instant>,
    agenda: Json,
    link: Json)

  type Schedule = Table<Meeting>

  /** How `db.session.commit()` of a row ends: the row is stored, the driver
      raises ValueError (psycopg2 does for a string holding U+0000), or the
      database raises a SQLAlchemyError (a value it refuses). */
  datatype Commit = Stored | RaisesValueError | RaisesDatabaseError

  /** The database's answer to committing a row: a parameter of the model. */
  type Database = Meeting -> Commit

  /** The three ways `datetime.fromisoformat(v)` ends. */
  datatype Parsed = Parsed(at: Instant) | NotAString | Malformed

  /** `datetime.fromisoformat(v)`: a non-string raises TypeError, a
      malformed string raises ValueError. */
  function FromIso(v: Json, parse: Parser): (p: Parsed)
    ensures p.NotAString? <==> !v.Str?
    ensures p.Parsed? <==> v.Str? && parse(v.s).Some?
    ensures p.Parsed? ==> Some(p.at) == parse(v.s)
  {
    match v
    case Str(text) => if parse(text).Some? then Parsed(parse(text).value) else Malformed
    case _ => NotAString
  }

  /** The row of the list response. */
  datatype Summary = Summary(id: nat, name: Json, hostId: Json, start: Instant, end: Option<Instant>)

  datatype Reply =
    | Failed(error: Error)
    | Created(id: nat, link: string, name: Json, start: Instant)
    | Listed(meetings: seq<Summary>, pagination: Envelope)
    | Found(id: nat, meeting: Meeting)
    | Updated(id: nat)
    | Deleted(id: nat, name: Json, hostId: Json)

  /** The relative link the create response gives: "/meetings/" and the id in
      decimal, from which the id reads back. */
  function LinkTo(id: nat): (link: string)
    ensures |link| > 10 && link[..10] == "/meetings/"
    ensures IsDigits(link[10..]) && DecimalValue(link[10..]) == id
  {
    DecimalRoundTrip(id);
    var link := "/meetings/" + NatToDecimal(id);
    assert link[10..] == NatToDecimal(id);
    link
  }

  /** All four required keys are present; their values are not inspected. */
  predicate HasRequired(data: Payload) {
    "name" in data && "host_id" in data && "start_time" in data && "attendees" in data
  }

  /** The end time create stores: parsed when `end_time` is truthy, none otherwise. */
  predicate EndTimeParses(data: Payload, parse: Parser) {
    !Truthy(Get(data, "end_time")) || FromIso(Get(data, "end_time"), parse).Parsed?
  }

  /** The meeting a create request describes once its times parse: the
      required fields as sent, the parsed start, an end only for a truthy
      end_time, and "" for an agenda or link left out (an explicit null stays). */
  function NewMeeting(data: Payload, parse: Parser): (m: Meeting)
    requires HasRequired(data)
    requires FromIso(data["start_time"], parse).Parsed? && EndTimeParses(data, parse)
    ensures m.name == data["name"] && m.hostId == data["host_id"] && m.attendees == data["attendees"]
    ensures Some(m.start) == parse(data["start_time"].s)
    ensures m.end.None? <==> !Truthy(Get(data, "end_time"))
    ensures m.end.Some? ==> Some(m.end.value) == parse(Get(data, "end_time").s)
    ensures "agenda" in data ==> m.agenda == data["agenda"]
    ensures "agenda" !in data ==> m.agenda == Str("")
    ensures "meeting_link" in data ==> m.link == data["meeting_link"]
    ensures "meeting_link" !in data ==> m.link == Str("")
  {
    var endV := Get(data, "end_time");
    Meeting(data["name"], data["host_id"], data["attendees"],
            FromIso(data["start_time"], parse).at,
            if Truthy(endV) then Some(FromIso(endV, parse).at) else None,
            GetOr(data, "agenda", Str("")),
            GetOr(data, "meeting_link", Str("")))
  }

  /** POST /meeting/. A missing required key gives 400; attendees that are not
      a list give 400; a malformed time gives 400 and a non-string one 500;
      a commit that raises ValueError lands in the same handler as a
      malformed time (400), and a row the database refuses gives 500; each
      of these leaves the store as it was. Otherwise exactly one meeting is added under a new id. */
  function Create(data: Payload, s: Schedule, parse: Parser, db: Database): (r: Outcome<Schedule, Reply>)
    ensures r.status in {StatusCreated, StatusBadRequest, StatusServerError}
    ensures !IsSuccess(r.status) ==> r.store == s && r.body.Failed?
    ensures !HasRequired(data) ==> r.status == StatusBadRequest && r.body == Failed(MissingFields)
    ensures HasRequired(data) && !data["attendees"].List? ==>
              r.status == StatusBadRequest && r.body == Failed(AttendeesNotList)
    ensures r.status == StatusBadRequest <==>
              || !HasRequired(data) || !data["attendees"].List?
              || FromIso(data["start_time"], parse).Malformed?
              || (&& FromIso(data["start_time"], parse).Parsed? && Truthy(Get(data, "end_time"))
                  && FromIso(Get(data, "end_time"), parse).Malformed?)
              || (&& FromIso(data["start_time"], parse).Parsed? && EndTimeParses(data, parse)
                  && db(NewMeeting(data, parse)).RaisesValueError?)
    ensures r.body == Failed(InvalidDatetime) ==>
              && HasRequired(data) && data["attendees"].List?
              && (|| FromIso(data["start_time"], parse).Malformed?
                  || (Truthy(Get(data, "end_time")) && FromIso(Get(data, "end_time"), parse).Malformed?)
                  || (&& FromIso(data["start_time"], parse).Parsed? && EndTimeParses(data, parse)
                      && db(NewMeeting(data, parse)).RaisesValueError?))
    ensures r.status == StatusCreated <==>
              && HasRequired(data) && data["attendees"].List?
              && FromIso(data["start_time"], parse).Parsed? && EndTimeParses(data, parse)
              && db(NewMeeting(data, parse)).Stored?
    ensures r.status == StatusCreated ==>
              && HasRequired(data) && data["attendees"].List?
              && FromIso(data["start_time"], parse).Parsed? && EndTimeParses(data, parse)
              && r.body.Created?
              && Inserted(s, r.store, r.body.id, NewMeeting(data, parse))
              && r.body.link == LinkTo(r.body.id)
              && r.body.name == data["name"]
              && Some(r.body.start) == parse(data["start_time"].s)
  {
    if !HasRequired(data) then
      Outcome(StatusBadRequest, s, Failed(MissingFields))
    else if !data["attendees"].List? then
      Outcome(StatusBadRequest, s, Failed(AttendeesNotList))
    else
      var start, endV := FromIso(data["start_time"], parse), Get(data, "end_time");
      if start.NotAString? then
        Outcome(StatusServerError, s, Failed(InternalError))
      else if start.Malformed? then
        Outcome(StatusBadRequest, s, Failed(InvalidDatetime))
      else if Truthy(endV) && FromIso(endV, parse).NotAString? then
        Outcome(StatusServerError, s, Failed(InternalError))
      else if Truthy(endV) && FromIso(endV, parse).Malformed? then
        Outcome(StatusBadRequest, s, Failed(InvalidDatetime))
      else
        var m := NewMeeting(data, parse);
        if db(m).RaisesValueError? then
          Outcome(StatusBadRequest, s, Failed(InvalidDatetime))
        else if db(m).RaisesDatabaseError? then
          Outcome(StatusServerError, s, Failed(DatabaseError))
        else
          var id := FreshKey(s);
          Outcome(StatusCreated, s[id := m], Created(id, LinkTo(id), m.name, m.start))
  }

  function SummaryOf(id: nat, m: Meeting): Summary {
    Summary(id, m.name, m.hostId, m.start, m.end)
  }

  /** The summaries of the meetings under `ids`, in that order. */
  function Summaries(s: Schedule, ids: seq<nat>): (r: seq<Summary>)
    requires forall i :: 0 <= i < |ids| ==> ids[i] in s
    ensures |r| == |ids|
    ensures forall i :: 0 <= i < |ids| ==> r[i] == SummaryOf(ids[i], s[ids[i]])
  {
    seq(|ids|, i requires 0 <= i < |ids| => SummaryOf(ids[i], s[ids[i]]))
  }

  /** GET /meeting/?page&per_page. `page` and `perPage` are the query
      arguments read as integers, None when absent or not an integer; they
      default to 1 and 10. The meetings, in id order, are paginated; a page
      past the last one lists nothing. */
  function List(page: Option<int>, perPage: Option<int>, s: Schedule): (r: Outcome<Schedule, Reply>)
    ensures r.store == s && r.status == StatusOk && r.body.Listed?
    ensures r.body.pagination.total == |s|
    ensures r.body.pagination.page == ClampPage(page.GetOr(1))
    ensures r.body.pagination.perPage == ClampPerPage(perPage.GetOr(10))
    ensures |r.body.meetings| <= r.body.pagination.perPage
    ensures forall i :: 0 <= i < |r.body.meetings| ==>
              r.body.meetings[i].id in s && r.body.meetings[i] == SummaryOf(r.body.meetings[i].id, s[r.body.meetings[i].id])
    ensures forall i, j :: 0 <= i < j < |r.body.meetings| ==> r.body.meetings[i].id < r.body.meetings[j].id
    ensures var p := Paginate(Ascending(s.Keys), page.GetOr(1), perPage.GetOr(10));
            && r.body.pagination == p.envelope
            && |r.body.meetings| == |p.items|
            && forall i :: 0 <= i < |p.items| ==> r.body.meetings[i].id == p.items[i]
  {
    var p := PageOfIds(s, page.GetOr(1), perPage.GetOr(10));
    Outcome(StatusOk, s, Listed(Summaries(s, p.items), p.envelope))
  }

  /** One page of the stored ids in ascending order. */
  function PageOfIds(s: Schedule, page: int, perPage: int): (p: Page<nat>)
    ensures p == Paginate(Ascending(s.Keys), page, perPage)
    ensures p.envelope.total == |s|
    ensures |p.items| <= p.envelope.perPage
    ensures forall i :: 0 <= i < |p.items| ==> p.items[i] in s
    ensures forall i, j :: 0 <= i < j < |p.items| ==> p.items[i] < p.items[j]
  {
    var ids := Ascending(s.Keys);
    assert |s.Keys| == |s|;
    var p := Paginate(ids, page, perPage);
    SliceOfAscending(ids, p.items, Offset(p.envelope.page, p.envelope.perPage), p.envelope.perPage, s.Keys);
    p
  }

  /** GET /meeting/<id>: every stored field, or 404. */
  function GetOne(id: nat, s: Schedule): (r: Outcome<Schedule, Reply>)
    ensures r.store == s
    ensures r.status == StatusNotFound <==> id !in s
    ensures id in s ==> r.status == StatusOk && r.body == Found(id, s[id])
  {
    if id !in s then Outcome(StatusNotFound, s, Failed(NotFound))
    else Outcome(StatusOk, s, Found(id, s[id]))
  }

  /** `value` when it is not null, else `current`: the update's overwrite rule. */
  function NonNullOr(value: Json, current: Json): (r: Json)
    ensures value != Null ==> r == value
    ensures value == Null ==> r == current
  {
    if value != Null then value else current
  }

  /** The update pre-pass: a `start_time` key and a non-null `end_time`
      must both parse. */
  predicate TimesParse(data: Payload, parse: Parser) {
    && ("start_time" in data ==> FromIso(Get(data, "start_time"), parse).Parsed?)
    && (Get(data, "end_time") != Null ==> FromIso(Get(data, "end_time"), parse).Parsed?)
  }

  /** The row an accepted update leaves: each JSON field is overwritten by a
      non-null value (so "" and [] do overwrite), start_time whenever its key
      is present, end_time only when its value is truthy. */
  function Revise(row: Meeting, data: Payload, parse: Parser): (m: Meeting)
    requires TimesParse(data, parse)
    ensures "start_time" in data ==> Some(m.start) == parse(data["start_time"].s)
    ensures "start_time" !in data ==> m.start == row.start
    ensures Truthy(Get(data, "end_time")) ==> m.end.Some? && Some(m.end.value) == parse(Get(data, "end_time").s)
    ensures !Truthy(Get(data, "end_time")) ==> m.end == row.end
  {
    var endV := Get(data, "end_time");
    Meeting(
      NonNullOr(Get(data, "name"), row.name),
      NonNullOr(Get(data, "host_id"), row.hostId),
      NonNullOr(Get(data, "attendees"), row.attendees),
      if "start_time" in data then FromIso(data["start_time"], parse).at else row.start,
      if Truthy(endV) then Some(FromIso(endV, parse).at) else row.end,
      NonNullOr(Get(data, "agenda"), row.agenda),
      NonNullOr(Get(data, "meeting_link"), row.link))
  }

  /** PUT /meeting/<id>. An absent id gives 404. Both times are parsed before
      anything is assigned, so a malformed one gives 400 and a non-string one
      (null start_time included) 500 with the store unchanged; a commit that
      raises ValueError is rolled back into 400, and a row the database
      refuses into 500. Otherwise only meeting `id` changes, and attendees
      are taken as sent, list or not. */
  function Update(id: nat, data: Payload, s: Schedule, parse: Parser, db: Database): (r: Outcome<Schedule, Reply>)
    ensures r.status in {StatusOk, StatusBadRequest, StatusNotFound, StatusServerError}
    ensures !IsSuccess(r.status) ==> r.store == s && r.body.Failed?
    ensures r.status == StatusNotFound <==> id !in s
    ensures r.status == StatusBadRequest <==>
              && id in s
              && (|| ("start_time" in data && FromIso(data["start_time"], parse).Malformed?)
                  || (&& ("start_time" in data ==> FromIso(data["start_time"], parse).Parsed?)
                      && Get(data, "end_time") != Null && FromIso(Get(data, "end_time"), parse).Malformed?)
                  || (TimesParse(data, parse) && db(Revise(s[id], data, parse)).RaisesValueError?))
    ensures r.status == StatusOk <==> id in s && TimesParse(data, parse) && db(Revise(s[id], data, parse)).Stored?
    ensures r.status == StatusOk ==>
              && TimesParse(data, parse) && r.body == Updated(id)
              && Replaced(s, r.store, id, Revise(s[id], data, parse))
              && r.store[id].name == NonNullOr(Get(data, "name"), s[id].name)
              && r.store[id].hostId == NonNullOr(Get(data, "host_id"), s[id].hostId)
              && r.store[id].attendees == NonNullOr(Get(data, "attendees"), s[id].attendees)
              && r.store[id].agenda == NonNullOr(Get(data, "agenda"), s[id].agenda)
              && r.store[id].link == NonNullOr(Get(data, "meeting_link"), s[id].link)
  {
    if id !in s then
      Outcome(StatusNotFound, s, Failed(NotFound))
    else
      var start, end := FromIso(Get(data, "start_time"), parse), FromIso(Get(data, "end_time"), parse);
      if "start_time" in data && start.NotAString? then
        Outcome(StatusServerError, s, Failed(InternalError))
      else if "start_time" in data && start.Malformed? then
        Outcome(StatusBadRequest, s, Failed(InvalidDatetime))
      else if Get(data, "end_time") != Null && end.NotAString? then
        Outcome(StatusServerError, s, Failed(InternalError))
      else if Get(data, "end_time") != Null && end.Malformed? then
        Outcome(StatusBadRequest, s, Failed(InvalidDatetime))
      else
        var m := Revise(s[id], data, parse);
        if db(m).RaisesValueError? then
          Outcome(StatusBadRequest, s, Failed(InvalidDatetime))
        else if db(m).RaisesDatabaseError? then
          Outcome(StatusServerError, s, Failed(DatabaseError))
        else
          Outcome(StatusOk, s[id := m], Updated(id))
  }

  /** DELETE /meeting/<id>: 404 for an absent id; otherwise exactly that
      meeting goes and the response echoes its name and host id. */
  function Delete(id: nat, s: Schedule): (r: Outcome<Schedule, Reply>)
    ensures r.status in {StatusOk, StatusNotFound}
    ensures r.status == StatusNotFound <==> id !in s
    ensures r.status == StatusNotFound ==> r.store == s
    ensures r.status == StatusOk ==>
              Removed(s, r.store, id) && r.body == Deleted(id, s[id].name, s[id].hostId)
  {
    if id !in s then Outcome(StatusNotFound, s, Failed(NotFound))
    else Outcome(StatusOk, s - {id}, Deleted(id, s[id].name, s[id].hostId))
  }

  /** Fetching the meeting that create announced returns it, with no end time
      when the request gave none (or a falsy one) and an empty agenda and link
      when the request left them out; the link in the create response names it. */
  lemma CreateThenGet(data: Payload, s: Schedule, parse: Parser, db: Database)
    requires Create(data, s, parse, db).status == StatusCreated
    ensures var r := Create(data, s, parse, db);
            var g := GetOne(DecimalValue(r.body.link[10..]), r.store);
            && g.status == StatusOk && g.body.Found? && g.body.id == r.body.id
            && g.body.meeting.name == r.body.name && g.body.meeting.start == r.body.start
            && g.body.meeting.hostId == data["host_id"] && g.body.meeting.attendees == data["attendees"]
            && (g.body.meeting.end.None? <==> !Truthy(Get(data, "end_time")))
            && g.body.meeting.agenda == (if "agenda" in data then data["agenda"] else Str(""))
            && g.body.meeting.link == (if "meeting_link" in data then data["meeting_link"] else Str(""))
  {
  }

  /** Deleting the meeting just created gives back the schedule as it was. */
  lemma CreateThenDelete(data: Payload, s: Schedule, parse: Parser, db: Database)
    requires Create(data, s, parse, db).status == StatusCreated
    ensures var r := Create(data, s, parse, db);
            var d := Delete(r.body.id, r.store);
            d.status == StatusOk && d.store == s && d.body.name == data["name"]
  {
    var r := Create(data, s, parse, db);
    RemoveInserted(s, r.store, r.body.id, NewMeeting(data, parse));
  }

  /** A deleted meeting is gone: fetching it afterwards gives 404. */
  lemma DeleteThenGet(id: nat, s: Schedule)
    ensures GetOne(id, Delete(id, s).store).status == StatusNotFound
  {
  }

  /** Applying a request's revision twice is applying it once. */
  lemma ReviseIdempotent(row: Meeting, data: Payload, parse: Parser)
    requires TimesParse(data, parse)
    ensures Revise(Revise(row, data, parse), data, parse) == Revise(row, data, parse)
  {
  }

  /** Sending the same update twice leaves the schedule as sending it once. */
  lemma UpdateIdempotent(id: nat, data: Payload, s: Schedule, parse: Parser, db: Database)
    requires Update(id, data, s, parse, db).status == StatusOk
    ensures var once := Update(id, data, s, parse, db).store;
            var twice := Update(id, data, once, parse, db);
            twice.status == StatusOk && twice.store == once
  {
    var m := Revise(s[id], data, parse);
    ReviseIdempotent(s[id], data, parse);
    var once := s[id := m];
    assert once[id := m] == once;
  }

  /** An end_time that is absent, null or "" is all one to create: the
      meeting gets no end time. */
  lemma CreateIgnoresFalsyEndTime(data: Payload, s: Schedule, parse: Parser, db: Database)
    requires !Truthy(Get(data, "end_time"))
    ensures Create(data, s, parse, db) == Create(data - {"end_time"}, s, parse, db)
  {
    var d := data - {"end_time"};
    assert Get(d, "end_time") == Null;
    assert HasRequired(d) == HasRequired(data);
    assert GetOr(d, "agenda", Str("")) == GetOr(data, "agenda", Str(""));
    assert GetOr(d, "meeting_link", Str("")) == GetOr(data, "meeting_link", Str(""));
    if HasRequired(data) {
      assert d["name"] == data["name"] && d["host_id"] == data["host_id"];
      assert d["start_time"] == data["start_time"] && d["attendees"] == data["attendees"];
    }
  }

  /** Update, unlike create, parses any non-null end_time: an end_time of ""
      (which no ISO 8601 parser accepts) is rejected with 400 before anything
      changes, where create would have stored no end time. */
  lemma UpdateRejectsEmptyEndTime(id: nat, data: Payload, s: Schedule, parse: Parser, db: Database)
    requires parse("") == None
    requires id in s && Get(data, "end_time") == Str("")
    requires "start_time" in data ==> FromIso(data["start_time"], parse).Parsed?
    ensures var r := Update(id, data, s, parse, db);
            r.status == StatusBadRequest && r.store == s && r.body == Failed(InvalidDatetime)
  {
  }

  /** A null start_time is passed to the parser, which raises TypeError: both
      create and update answer 500 and change nothing. */
  lemma NullStartTimeIsServerError(id: nat, data: Payload, s: Schedule, parse: Parser, db: Database)
    requires "start_time" in data && data["start_time"] == Null
    ensures HasRequired(data) && data["attendees"].List? ==>
              var r := Create(data, s, parse, db);
              r.status == StatusServerError && r.store == s
    ensures id in s ==>
              var r := Update(id, data, s, parse, db);
              r.status == StatusServerError && r.store == s
  {
  }

  /** An update naming only the agenda changes the agenda of that one meeting. */
  lemma AgendaOnlyUpdate(id: nat, agenda: Json, s: Schedule, parse: Parser, db: Database)
    requires id in s && agenda != Null
    requires db(s[id].(agenda := agenda)).Stored?
    ensures var r := Update(id, map["agenda" := agenda], s, parse, db);
            r.status == StatusOk && r.store == s[id := s[id].(agenda := agenda)]
  {
    var data := map["agenda" := agenda];
    assert Get(data, "name") == Null && Get(data, "host_id") == Null && Get(data, "attendees") == Null;
    assert Get(data, "end_time") == Null && Get(data, "meeting_link") == Null;
    assert "start_time" !in data;
    assert Revise(s[id], data, parse) == s[id].(agenda := agenda);
  }

  /** A page past the last one lists no meetings. */
  lemma ListPastLastPage(page: int, perPage: int, s: Schedule)
    requires ClampPage(page) > PageCount(|s|, ClampPerPage(perPage))
    ensures List(Some(page), Some(perPage), s).body.meetings == []
  {
    assert |Ascending(s.Keys)| == |s|;
    PastLastPageIsEmpty(Ascending(s.Keys), page, perPage);
  }

  /** Paging through the list finds every meeting: the meeting with the
      `i`-th smallest id is entry `i % per_page` of page `i / per_page + 1`. */
  lemma EveryMeetingListed(k: nat, perPage: nat, s: Schedule) returns (page: nat, entry: nat)
    requires k in s && perPage >= 1
    ensures var r := List(Some(page), Some(perPage), s);
            entry < |r.body.meetings| && r.body.meetings[entry] == SummaryOf(k, s[k])
  {
    var ids := Ascending(s.Keys);
    var i :| 0 <= i < |ids| && ids[i] == k;
    page, entry := PageOf(i, perPage), i % perPage;
    var p := Paginate(ids, page, perPage);
    assert entry < |p.items| && p.items[entry] == k by {
      EveryItemOnItsPage(ids, perPage, i);
    }
    ListedAt(s, page, perPage, entry);
  }

  /** Entry `entry` of a listed page summarises the meeting whose id is
      entry `entry` of the same page of ascending ids. */
  lemma ListedAt(s: Schedule, page: nat, perPage: nat, entry: nat)
    requires entry < |Paginate(Ascending(s.Keys), page, perPage).items|
    ensures var r := List(Some(page), Some(perPage), s);
            var id := Paginate(Ascending(s.Keys), page, perPage).items[entry];
            entry < |r.body.meetings| && id in s && r.body.meetings[entry] == SummaryOf(id, s[id])
  {
  }
}

=== FILE: pagination.dfy ===
/**
 Flask-SQLAlchemy's `paginate(page, per_page, error_out=False)` over an
 ordered result: out-of-range arguments are clamped instead of raising,
 the items are one slice of the result, and the envelope reports the
 total, the page count and whether a previous or next page exists.

 The offset of a page and the page count are defined by repeated
 addition and subtraction; `OffsetIsProduct` and `PageCountIsCeiling`
 connect them to `(page - 1) * per_page` and to `ceil(total / per_page)`.
 */
module Pagination {

  /** The `pagination` object of the list response. */
  datatype Envelope = Envelope(total: nat, pages: nat, page: nat, perPage: nat, hasNext: bool, hasPrev: bool)

  datatype Page<T> = Page(items: seq<T>, envelope: Envelope)

  /** With error_out=False a page below 1 is read as page 1. */
  function ClampPage(page: int): (p: nat)
    ensures 1 <= p
    ensures 1 <= page ==> p == page
    ensures page < 1 ==> p == 1
  {
    if page < 1 then 1 else page
  }

  /** With error_out=False a per_page below 1 is read as the library default 20. */
  function ClampPerPage(perPage: int): (n: nat)
    ensures 1 <= n
    ensures 1 <= perPage ==> n == perPage
    ensures perPage < 1 ==> n == 20
  {
    if perPage < 1 then 20 else perPage
  }

  /** The number of items on the pages before `page`. */
  function Offset(page: nat, perPage: nat): nat
    requires page >= 1
  {
    if page == 1 then 0 else Offset(page - 1, perPage) + perPage
  }

  lemma {:induction false} OffsetIsProduct(page: nat, perPage: nat)
    requires page >= 1
    ensures Offset(page, perPage) == (page - 1) * perPage
  {
    if page > 1 {
      OffsetIsProduct(page - 1, perPage);
      assert (page - 1) * perPage == (page - 2) * perPage + perPage;
    }
  }

  /** The number of pages of `per_page` items that `total` items fill, the
      last one possibly partial; no pages for no items. */
  function PageCount(total: nat, perPage: nat): (n: nat)
    requires perPage >= 1
    ensures total == 0 <==> n == 0
    decreases total
  {
    if total == 0 then 0
    else if total <= perPage then 1
    else 1 + PageCount(total - perPage, perPage)
  }

  /** The page count is `ceil(total / per_page)`: the least number of pages
      of `per_page` items that hold `total` items. */
  lemma {:induction false} PageCountIsCeiling(total: nat, perPage: nat)
    requires perPage >= 1
    ensures var n := PageCount(total, perPage);
            total <= n * perPage && (n == 0 || (n - 1) * perPage < total)
    decreases total
  {
    if total > perPage {
      var m := PageCount(total - perPage, perPage);
      PageCountIsCeiling(total - perPage, perPage);
      assert (m + 1) * perPage == m * perPage + perPage;
      assert m * perPage == (m - 1) * perPage + perPage;
    }
  }

  /** A further page exists exactly when the items up to the end of this
      page do not reach the total. */
  lemma {:induction false} MorePagesIff(total: nat, page: nat, perPage: nat)
    requires perPage >= 1 && page >= 1
    ensures page < PageCount(total, perPage) <==> Offset(page, perPage) + perPage < total
    decreases total
  {
    if page > 1 {
      OffsetAtLeast(page, perPage);
      if total > perPage {
        MorePagesIff(total - perPage, page - 1, perPage);
      }
    }
  }

  lemma {:induction false} OffsetAtLeast(page: nat, perPage: nat)
    requires page >= 2
    ensures Offset(page, perPage) >= perPage
  {
    if page > 2 {
      OffsetAtLeast(page - 1, perPage);
    }
  }

  function Min(a: nat, b: nat): nat {
    if a <= b then a else b
  }

  /** The page `page` of `xs` with `per_page` items a page. The items are the
      slice after the earlier pages' items, at most `per_page` long and empty
      past the end; `has_next` says that items remain after this page. */
  function Paginate<T>(xs: seq<T>, page: int, perPage: int): (r: Page<T>)
    ensures r.envelope.page == ClampPage(page) && r.envelope.perPage == ClampPerPage(perPage)
    ensures r.envelope.total == |xs|
    ensures r.envelope.pages == PageCount(|xs|, r.envelope.perPage)
    ensures SliceAt(xs, r.items, Offset(r.envelope.page, r.envelope.perPage), r.envelope.perPage)
    ensures r.envelope.hasPrev <==> r.envelope.page > 1
    ensures r.envelope.hasNext <==> Offset(r.envelope.page, r.envelope.perPage) + r.envelope.perPage < |xs|
  {
    var p, pp := ClampPage(page), ClampPerPage(perPage);
    var pages := PageCount(|xs|, pp);
    MorePagesIff(|xs|, p, pp);
    Page(Window(xs, Offset(p, pp), pp), Envelope(|xs|, pages, p, pp, p < pages, p > 1))
  }

  /** `w` is the run of at most `size` items of `xs` starting at `offset`,
      empty when `offset` is past the end. */
  ghost predicate SliceAt<T>(xs: seq<T>, w: seq<T>, offset: nat, size: nat) {
    && |w| == (if offset >= |xs| then 0 else Min(size, |xs| - offset))
    && forall i :: 0 <= i < |w| ==> offset + i < |xs| && w[i] == xs[offset + i]
  }

  /** `LIMIT size OFFSET offset`. */
  function Window<T>(xs: seq<T>, offset: nat, size: nat): (w: seq<T>)
    ensures SliceAt(xs, w, offset, size)
  {
    if offset >= |xs| then [] else xs[offset..offset + Min(size, |xs| - offset)]
  }

  /** A slice of a strictly increasing sequence drawn from `keys` is itself
      strictly increasing and drawn from `keys`. */
  lemma SliceOfAscending(xs: seq<nat>, w: seq<nat>, offset: nat, size: nat, keys: set<nat>)
    requires SliceAt(xs, w, offset, size)
    requires forall i :: 0 <= i < |xs| ==> xs[i] in keys
    requires forall i, j :: 0 <= i < j < |xs| ==> xs[i] < xs[j]
    ensures |w| <= size
    ensures forall i :: 0 <= i < |w| ==> w[i] in keys
    ensures forall i, j :: 0 <= i < j < |w| ==> w[i] < w[j]
  {
    forall i, j | 0 <= i < j < |w|
      ensures w[i] < w[j]
    {
      assert w[i] == xs[offset + i] && w[j] == xs[offset + j];
    }
  }

  /** Asking for a page past the last one gives no items, not an error. */
  lemma PastLastPageIsEmpty<T>(xs: seq<T>, page: int, perPage: int)
    requires ClampPage(page) > PageCount(|xs|, ClampPerPage(perPage))
    ensures Paginate(xs, page, perPage).items == []
  {
    var p, pp := ClampPage(page), ClampPerPage(perPage);
    if |xs| > 0 {
      MorePagesIff(|xs|, p - 1, pp);
    }
  }

  /** The page item `i` (counted from 0) falls on: `i // per_page + 1`. */
  function PageOf(i: nat, perPage: nat): (page: nat)
    requires perPage >= 1
    ensures page >= 1
  {
    i / perPage + 1
  }

  /** Every item appears on the page its position predicts: item `i` is
      entry `i % per_page` of page `i / per_page + 1`. */
  lemma EveryItemOnItsPage<T>(xs: seq<T>, perPage: nat, i: nat)
    requires perPage >= 1 && i < |xs|
    ensures var r := Paginate(xs, PageOf(i, perPage), perPage);
            i % perPage < |r.items| && r.items[i % perPage] == xs[i]
  {
    var q := i / perPage;
    OffsetIsProduct(q + 1, perPage);
    assert Offset(q + 1, perPage) + i % perPage == i;
  }

  /** Fifteen results ten to a page: page 1 is full with a next page, page 2
      holds the remaining five with a previous page only. */
  lemma FifteenResultsTenPerPage<T>(xs: seq<T>)
    requires |xs| == 15
    ensures var one := Paginate(xs, 1, 10);
            |one.items| == 10 && one.envelope.hasNext && !one.envelope.hasPrev && one.envelope.pages == 2
    ensures var two := Paginate(xs, 2, 10);
            |two.items| == 5 && !two.envelope.hasNext && two.envelope.hasPrev && two.items == xs[10..]
  {
    var two := Paginate(xs, 2, 10);
    assert two.items == xs[10..];
  }
}

=== FILE: store.dfy ===
/**
 A database table as a map from surrogate id to row, with the three
 things the handlers need from the database: the row `.first()` picks,
 the rows in id order, and the id a new row receives. The predicates
 `Inserted`, `Replaced` and `Removed` say that exactly one row changed.
 */
module Store {
  import opened Values

  /** A table: surrogate primary key to row. */
  type Table<V> = map<nat, V>

  /** Every non-empty set of naturals has a least element, found here by
      induction on the size of the set. */
  lemma {:induction false} LeastWitness(keys: set<nat>) returns (m: nat)
    requires keys != {}
    ensures m in keys && forall k :: k in keys ==> m <= k
    decreases |keys|
  {
    var x :| x in keys;
    var rest := keys - {x};
    if rest == {} {
      assert keys == {x};
      return x;
    }
    assert |rest| < |keys|;
    var r := LeastWitness(rest);
    m := if x < r then x else r;
    forall k | k in keys
      ensures m <= k
    {
      if k != x {
        assert k in rest;
      }
    }
  }

  lemma LeastExists(keys: set<nat>)
    requires keys != {}
    ensures exists m :: m in keys && forall k :: k in keys ==> m <= k
  {
    var m := LeastWitness(keys);
  }

  /** The least element of a non-empty set of naturals. */
  function Least(keys: set<nat>): (m: nat)
    requires keys != {}
    ensures m in keys
    ensures forall k :: k in keys ==> m <= k
  {
    LeastExists(keys);
    var m :| m in keys && forall k :: k in keys ==> m <= k;
    m
  }

  /** The keys in ascending order: every key exactly once, strictly increasing. */
  function Ascending(keys: set<nat>): (r: seq<nat>)
    ensures |r| == |keys|
    ensures forall i :: 0 <= i < |r| ==> r[i] in keys
    ensures forall k :: k in keys ==> k in r
    ensures forall i, j :: 0 <= i < j < |r| ==> r[i] < r[j]
    decreases |keys|
  {
    if keys == {} then []
    else
      var m := Least(keys);
      assert |keys - {m}| < |keys|;
      var rest := Ascending(keys - {m});
      PrependLeast(keys, m, rest);
      [m] + rest
  }

  /** The least key followed by the others in ascending order is all the keys
      in ascending order. */
  lemma PrependLeast(keys: set<nat>, m: nat, rest: seq<nat>)
    requires m in keys && forall k :: k in keys ==> m <= k
    requires |rest| == |keys - {m}|
    requires forall i :: 0 <= i < |rest| ==> rest[i] in keys - {m}
    requires forall k :: k in keys - {m} ==> k in rest
    requires forall i, j :: 0 <= i < j < |rest| ==> rest[i] < rest[j]
    ensures var r := [m] + rest;
            && |r| == |keys|
            && (forall i :: 0 <= i < |r| ==> r[i] in keys)
            && (forall k :: k in keys ==> k in r)
            && (forall i, j :: 0 <= i < j < |r| ==> r[i] < r[j])
  {
    var r := [m] + rest;
    assert |keys - {m}| == |keys| - 1;
    assert forall i :: 0 < i < |r| ==> r[i] == rest[i - 1];
    assert forall i :: 0 <= i < |rest| ==> m < rest[i];
  }

  /** The id a new row receives. A serial key promises only that it is
      unused and larger than every id in use; the model picks one more than
      the largest id (1 in an empty table), and no contract relies on that. */
  function FreshKey<V>(t: Table<V>): (k: nat)
    ensures k !in t
    ensures 1 <= k
    ensures forall j :: j in t ==> j < k
  {
    var ks := Ascending(t.Keys);
    if ks == [] then 1
    else
      assert forall j :: j in t ==> j <= ks[|ks| - 1] by {
        forall j | j in t
          ensures j <= ks[|ks| - 1]
        {
          var i :| 0 <= i < |ks| && ks[i] == j;
          assert i == |ks| - 1 || ks[i] < ks[|ks| - 1];
        }
      }
      ks[|ks| - 1] + 1
  }

  /** `query.filter_by(...).first()`: the least id whose row satisfies `p`,
      or None when no row does. */
  function FirstWhere<V>(t: Table<V>, p: V -> bool): (r: Option<nat>)
    ensures r.Some? ==> r.value in t && p(t[r.value])
    ensures r.Some? ==> forall k :: k in t && p(t[k]) ==> r.value <= k
    ensures r.None? <==> forall k :: k in t ==> !p(t[k])
  {
    var hits := set k | k in t && p(t[k]);
    assert forall k :: k in t && p(t[k]) ==> k in hits;
    if hits == {} then None else Some(Least(hits))
  }

  /** `after` is `before` plus the one new row `v` under the new key `k`. */
  predicate Inserted<V(==)>(before: Table<V>, after: Table<V>, k: nat, v: V) {
    k !in before && after == before[k := v]
  }

  /** `after` is `before` with the row under `k` replaced by `v`, nothing else. */
  predicate Replaced<V(==)>(before: Table<V>, after: Table<V>, k: nat, v: V) {
    k in before && after == before[k := v]
  }

  /** `after` is `before` without the row under `k`, nothing else. */
  predicate Removed<V(==)>(before: Table<V>, after: Table<V>, k: nat) {
    k in before && after == before - {k}
  }

  /** A string the database driver can send as a query parameter: psycopg2
      raises ValueError for one holding the character U+0000. */
  predicate Bindable(x: string) {
    '\0' !in x
  }

  /** Whether a `String(n)` column takes `x`: PostgreSQL refuses a longer
      value unless every character past the n-th is a space. */
  predicate Storable(x: string, n: nat) {
    forall i | n <= i < |x| :: x[i] == ' '
  }

  /** What a `String(n)` column keeps of `x`: the longest prefix of at most
      n characters. For a value the column takes, only spaces are lost. */
  function Column(x: string, n: nat): (r: string)
    ensures |r| <= n && r <= x
    ensures |r| == |x| || |r| == n
    ensures Storable(x, n) ==> forall i | |r| <= i < |x| :: x[i] == ' '
    ensures Bindable(x) ==> Bindable(r)
  {
    if |x| <= n then x else x[..n]
  }

  /** A value that does not end in a space is taken exactly when it fits,
      and is then kept whole. */
  lemma ColumnKeepsUnpadded(x: string, n: nat)
    requires x == [] || x[|x| - 1] != ' '
    ensures Storable(x, n) <==> |x| <= n
    ensures Storable(x, n) ==> Column(x, n) == x
  {
    if |x| > n {
      assert x[|x| - 1] != ' ';
    }
  }

  /** Every row of `t` satisfies `p`. */
  ghost predicate Every<V>(t: Table<V>, p: V -> bool) {
    forall k :: k in t ==> p(t[k])
  }

  /** Writing a row that satisfies `p` keeps every row satisfying `p`. */
  lemma WriteKeepsEvery<V>(t: Table<V>, k: nat, v: V, p: V -> bool)
    requires Every(t, p) && p(v)
    ensures Every(t[k := v], p)
  {
    var u := t[k := v];
    forall j | j in u
      ensures p(u[j])
    {
      if j != k {
        assert u[j] == t[j];
      }
    }
  }

  /** Removing a row just inserted gives back the table as it was. */
  lemma RemoveInserted<V>(before: Table<V>, after: Table<V>, k: nat, v: V)
    requires Inserted(before, after, k, v)
    ensures after - {k} == before
  {
    assert (after - {k}).Keys == before.Keys;
  }
}

=== FILE: text.dfy ===
/**
 The string operations the handlers apply: Python's `str.strip()` and
 `str.lower()` (ASCII letters only), the email normalisation built from
 them, and the decimal rendering of an id used in a meeting link.
 */
module Text {

  /** The 29 characters for which Python's `str.isspace()` is true: those of
      Unicode category Zs or bidirectional class WS, B or S. */
  const Whitespace: set<char> := {
    '\t', '\n', '\U{0b}', '\U{0c}', '\r', '\U{1c}', '\U{1d}', '\U{1e}', '\U{1f}', ' ',
    '\U{85}', '\U{a0}', '\U{1680}',
    '\U{2000}', '\U{2001}', '\U{2002}', '\U{2003}', '\U{2004}', '\U{2005}',
    '\U{2006}', '\U{2007}', '\U{2008}', '\U{2009}', '\U{200a}',
    '\U{2028}', '\U{2029}', '\U{202f}', '\U{205f}', '\U{3000}'}

  /** Python's `str.isspace()` on one character, as a test of code-point ranges. */
  predicate IsSpace(c: char) {
    || c == ' '
    || ('\t' <= c <= '\r')
    || ('\U{1c}' <= c <= '\U{1f}')
    || c == '\U{85}'
    || c == '\U{a0}'
    || c == '\U{1680}'
    || ('\U{2000}' <= c <= '\U{200a}')
    || c == '\U{2028}'
    || c == '\U{2029}'
    || c == '\U{202f}'
    || c == '\U{205f}'
    || c == '\U{3000}'
  }

  /** The range test accepts exactly the 29 whitespace characters. */
  lemma IsSpaceIsWhitespace(c: char)
    ensures IsSpace(c) <==> c in Whitespace
  {
  }

  /** True when `s` neither starts nor ends with whitespace. */
  predicate Trimmed(s: string) {
    s == [] || (!IsSpace(s[0]) && !IsSpace(s[|s| - 1]))
  }

  /** `s` with its leading whitespace removed. */
  function TrimStart(s: string): (r: string)
    ensures |r| <= |s| && r == s[|s| - |r|..]
    ensures forall i :: 0 <= i < |s| - |r| ==> IsSpace(s[i])
    ensures r == [] || !IsSpace(r[0])
  {
    if |s| > 0 && IsSpace(s[0]) then TrimStart(s[1..]) else s
  }

  /** `s` with its trailing whitespace removed. */
  function TrimEnd(s: string): (r: string)
    ensures |r| <= |s| && r == s[..|r|]
    ensures forall i :: |r| <= i < |s| ==> IsSpace(s[i])
    ensures r == [] || !IsSpace(r[|r| - 1])
  {
    if |s| > 0 && IsSpace(s[|s| - 1]) then TrimEnd(s[..|s| - 1]) else s
  }

  /** The number of leading whitespace characters of `s`. */
  function LeadingSpaces(s: string): nat {
    |s| - |TrimStart(s)|
  }

  /** Python's `s.strip()`: the infix of `s` left once the leading and the
      trailing whitespace are removed. */
  function Strip(s: string): (r: string)
    ensures Trimmed(r)
    ensures InfixAt(s, r, LeadingSpaces(s))
    ensures SpacesAround(s, LeadingSpaces(s), |r|)
  {
    StripSplitsSpaces(s);
    TrimEnd(TrimStart(s))
  }

  /** `r` occurs in `s` starting at position `i`. */
  ghost predicate InfixAt(s: string, r: string, i: nat) {
    i + |r| <= |s| && r == s[i..i + |r|]
  }

  /** Every character of `s` before position `i` and from `i + n` on is whitespace. */
  ghost predicate SpacesAround(s: string, i: nat, n: nat) {
    && (forall j :: 0 <= j < i && j < |s| ==> IsSpace(s[j]))
    && (forall j :: i + n <= j < |s| ==> IsSpace(s[j]))
  }

  lemma StripSplitsSpaces(s: string)
    ensures var r := TrimEnd(TrimStart(s));
            InfixAt(s, r, LeadingSpaces(s)) && SpacesAround(s, LeadingSpaces(s), |r|)
  {
    var t := TrimStart(s);
    TrimEndOfSuffix(s, t, |s| - |t|);
  }

  /** Trimming the end of the suffix of `s` from `i` leaves an infix of `s`
      followed only by whitespace. */
  lemma TrimEndOfSuffix(s: string, t: string, i: nat)
    requires i <= |s| && t == s[i..]
    ensures var r := TrimEnd(t);
            && InfixAt(s, r, i)
            && forall j :: i + |r| <= j < |s| ==> IsSpace(s[j])
  {
    var r := TrimEnd(t);
    assert r == s[i..i + |r|];
    forall j | i + |r| <= j < |s|
      ensures IsSpace(s[j])
    {
      assert s[j] == t[j - i];
    }
  }

  /** A string with no outer whitespace is its own strip, and only such a string is. */
  lemma StripFixedPoint(s: string)
    ensures Strip(s) == s <==> Trimmed(s)
  {
    if Trimmed(s) {
      assert TrimStart(s) == s;
      assert TrimEnd(s) == s;
    }
  }

  /** Stripping twice is stripping once. */
  lemma StripIdempotent(s: string)
    ensures Strip(Strip(s)) == Strip(s)
  {
    StripFixedPoint(Strip(s));
  }

  /** Lower-cases an ASCII capital letter; every other character is kept. */
  function LowerChar(c: char): char {
    if 'A' <= c <= 'Z' then (c as int + 32) as char else c
  }

  /** Python's `s.lower()`, restricted to ASCII letters. */
  function Lower(s: string): (r: string)
    ensures |r| == |s|
    ensures forall i :: 0 <= i < |s| ==> r[i] == LowerChar(s[i])
    ensures NoCapitals(r)
  {
    seq(|s|, i requires 0 <= i < |s| => LowerChar(s[i]))
  }

  /** True when `s` holds no ASCII capital letter. */
  predicate NoCapitals(s: string) {
    forall i :: 0 <= i < |s| ==> !('A' <= s[i] <= 'Z')
  }

  /** Part of a string without capitals has none either. */
  lemma NoCapitalsInfix(s: string, r: string, i: nat)
    requires NoCapitals(s) && InfixAt(s, r, i)
    ensures NoCapitals(r)
  {
    forall j | 0 <= j < |r|
      ensures !('A' <= r[j] <= 'Z')
    {
      assert r[j] == s[i + j];
    }
  }

  lemma {:induction false} LowerTrimStart(s: string)
    ensures Lower(TrimStart(s)) == TrimStart(Lower(s))
    decreases |s|
  {
    if |s| > 0 && IsSpace(s[0]) {
      assert Lower(s)[1..] == Lower(s[1..]);
      LowerTrimStart(s[1..]);
    }
  }

  lemma {:induction false} LowerTrimEnd(s: string)
    ensures Lower(TrimEnd(s)) == TrimEnd(Lower(s))
    decreases |s|
  {
    if |s| > 0 && IsSpace(s[|s| - 1]) {
      assert Lower(s)[..|s| - 1] == Lower(s[..|s| - 1]);
      LowerTrimEnd(s[..|s| - 1]);
    }
  }

  /** Lower-casing and stripping commute: `s.lower().strip() == s.strip().lower()`. */
  lemma LowerStripCommute(s: string)
    ensures Lower(Strip(s)) == Strip(Lower(s))
  {
    LowerTrimStart(s);
    LowerTrimEnd(TrimStart(s));
  }

  /** `email.lower().strip()`, the normal form both the admin and the employee
      handlers store and look emails up by. The result has no outer whitespace
      and no capital letter. */
  function NormaliseEmail(email: string): (r: string)
    ensures Trimmed(r)
    ensures NoCapitals(r)
    ensures |r| <= |email|
  {
    var l := Lower(email);
    NoCapitalsInfix(l, Strip(l), LeadingSpaces(l));
    Strip(l)
  }

  /** Normalising a normalised email changes nothing. */
  lemma NormaliseIdempotent(email: string)
    ensures NormaliseEmail(NormaliseEmail(email)) == NormaliseEmail(email)
  {
    var l := Lower(email);
    var n := NormaliseEmail(email);
    assert n == Strip(l);
    LowerIdempotent(email);
    LowerStripCommute(l);
    StripIdempotent(l);
  }

  /** Lower-casing twice is lower-casing once. */
  lemma LowerIdempotent(s: string)
    ensures Lower(Lower(s)) == Lower(s)
  {
    var l := Lower(s);
    forall i | 0 <= i < |s|
      ensures Lower(l)[i] == l[i]
    {
      var c := s[i];
      assert l[i] == LowerChar(c);
    }
  }

  /** The character of one decimal digit. */
  function DigitChar(d: nat): char
    requires d < 10
  {
    ('0' as int + d) as char
  }

  predicate IsDigits(s: string) {
    forall i :: 0 <= i < |s| ==> '0' <= s[i] <= '9'
  }

  /** Python's `str(n)` for a natural number: decimal, no leading zeros. */
  function NatToDecimal(n: nat): (r: string)
    ensures 1 <= |r| && IsDigits(r)
    ensures n > 0 ==> r[0] != '0'
    decreases n
  {
    if n < 10 then [DigitChar(n)] else NatToDecimal(n / 10) + [DigitChar(n % 10)]
  }

  /** The number a string of decimal digits denotes. */
  function DecimalValue(s: string): nat
    requires IsDigits(s)
    decreases |s|
  {
    if s == [] then 0 else DecimalValue(s[..|s| - 1]) * 10 + (s[|s| - 1] as int - '0' as int)
  }

  /** Reading the decimal rendering of `n` back gives `n`. */
  lemma {:induction false} DecimalRoundTrip(n: nat)
    ensures DecimalValue(NatToDecimal(n)) == n
    decreases n
  {
    if n >= 10 {
      var r := NatToDecimal(n);
      assert r[..|r| - 1] == NatToDecimal(n / 10);
      DecimalRoundTrip(n / 10);
    }
  }
}

=== FILE: values.dfy ===
/**
 The values every request handler works with: the decoded JSON request
 body, Python's truthiness on it, the error categories the handlers
 answer with, and the (status, store, body) outcome of a handler.
 */
module Values {

  datatype Option<+T> = None | Some(value: T) {

    /** `value` when present, `default` otherwise. */
    function GetOr(default: T): T {
      match this
      case Some(v) => v
      case None => default
    }
  }

  /** A decoded JSON value. JSON numbers with a fraction are not modelled. */
  datatype Json =
    | Null
    | Bool(b: bool)
    | Int(i: int)
    | Str(s: string)
    | List(items: seq<Json>)
    | Obj(fields: map<string, Json>)

  /** A request body that decoded to a JSON object. */
  type Payload = map<string, Json>

  /** `data.get(key)`: the value under `key`, or None when the key is absent. */
  function Get(data: Payload, key: string): (v: Json)
    ensures v == GetOr(data, key, Null)
    ensures v != Null ==> key in data && data[key] == v
  {
    if key in data then data[key] else Null
  }

  /** `data.get(key, default)`: unlike `Get`, an explicit null stays null. */
  function GetOr(data: Payload, key: string, default: Json): (v: Json)
    ensures key in data ==> v == data[key]
    ensures key !in data ==> v == default
  {
    if key in data then data[key] else default
  }

  /** `data.get(key)` cannot tell a key sent as null from a key left out:
      removing the key changes the answer exactly when it was not null. */
  lemma GetConflatesNullAndAbsent(data: Payload, key: string)
    ensures Get(data - {key}, key) == Null
    ensures Get(data, key) == Get(data - {key}, key) <==> Get(data, key) == Null
  {
  }

  /** Python's `bool(v)`: None, False, 0, "", [] and {} are false. */
  predicate Truthy(v: Json) {
    match v
    case Null => false
    case Bool(b) => b
    case Int(i) => i != 0
    case Str(s) => s != ""
    case List(xs) => xs != []
    case Obj(m) => m != map[]
  }

  /** The falsy values are exactly None, False, 0, "", [] and {}. */
  lemma FalsyValues(v: Json)
    ensures !Truthy(v) <==> v in {Null, Bool(false), Int(0), Str(""), List([]), Obj(map[])}
  {
  }

  /** The error categories the handlers report (the message texts are not modelled). */
  datatype Error =
    | MissingFields       // a required field is absent or falsy
    | AttendeesNotList    // attendees present but not a JSON array
    | InvalidDatetime     // a ValueError: from the datetime parser or the driver
    | EmailExists         // the handler found the (normalised) email already stored
    | InvalidCredentials  // unknown email or wrong password, one message for both
    | NotFound            // no record under the requested id
    | DatabaseError       // SQLAlchemyError during commit, after rollback
    | InternalError       // any other exception in the meeting handlers, after rollback
    | ServerError         // any other exception elsewhere (caught or left to Flask)

  const StatusOk: nat := 200
  const StatusCreated: nat := 201
  const StatusBadRequest: nat := 400
  const StatusUnauthorized: nat := 401
  const StatusNotFound: nat := 404
  const StatusServerError: nat := 500

  predicate IsSuccess(status: nat) {
    200 <= status < 300
  }

  /** What a handler answers (HTTP status and body) and the store it leaves behind. */
  datatype Outcome<S, B> = Outcome(status: nat, store: S, body: B)
}
